=== FILE: README.md ===
# CF Battle Grid — game rules in Dafny

CF Battle Grid is a two-team game played on a 3x3 board of Codeforces
problems. A player claims a cell by solving its problem on Codeforces. A
team wins with three of its marks in a row, column or diagonal. A full
board with no such line is a draw.

This project models the rules the server and the client apply:

- the room record and its win/draw evaluator (`RoomModel`);
- the room service: create, join, start and the membership queries (`RoomManager`);
- the claim, join and start routes (`RoomRoutes`);
- the per-connection socket handlers for join, join-team, reconnect, leave and disconnect (`SocketGateway`);
- board provisioning from the problem catalogue (`GameLogic`);
- the solved-problem queries and the submissions cache (`Codeforces`);
- the player history and its statistics (`Leaderboard`);
- on the client side, the settings modal (`GameSettings`), the room countdown (`Countdown`) and the chat panel (`Chat`).

The shared value types are in `Catalog`, `Wrappers` and `JsBuiltins`.
`JsBuiltins` holds the JavaScript library behaviour the code relies on:
`parseInt`, `trim`, `filter`, `slice(-n)`, `[...new Set(xs)]` and `join`.

Imperative code is modelled as imperative Dafny:

- A room whose fields the routes assign is a class, `RoomModel.Room`.
- So are a socket connection with its `currentRoom` (`SocketGateway.Connection`), the submissions cache (`Codeforces.SubmissionsCache`) and the chat panel's state (`Chat.ChatPanel`).
- The source's loops are methods with loop invariants: the `checkWin` scan, the claim loop, the OR-mode merge, the solved-set collection, the board scan and the solved-count loop.
- Each such method is proved equal to a specification function.
- The properties are proved about those functions.

Pure helpers are functions with lemmas.

Inputs are arguments. A room lookup is a `Room?` argument that is null for an unknown id. Other arguments are the clock reading, what the Codeforces API answers, the shuffle and the board provider.

## Model

| member | source | states |
|---|---|---|
| RoomModel.LineCells | backend/models/Room.js:84-104 | each of the eight lines has three cells, all inside the 3x3 grid |
| RoomModel.FirstWonLine | backend/models/Room.js:84-104 | the result is a won line, and no line earlier in scan order (rows, columns, diagonals) is won; None means no line from the start point on is won |
| RoomModel.EvaluateCases | backend/models/Room.js:84-118 | the outcome is teamA exactly when the first won line is all 'X'. It is teamB exactly when that line holds another truthy mark. It is a draw exactly when no line is won and all nine cells are marked. It is null exactly when no line is won and some cell is empty |
| RoomModel.FirstWonLineReadsGrid | backend/models/Room.js:78-82 | two mark maps that agree on the nine grid keys have the same first won line and the same won lines |
| RoomModel.EvaluateReadsOnlyGrid | backend/models/Room.js:78-82 | the outcome depends only on the nine in-range keys |
| RoomModel.WinnerCanChange | backend/models/Room.js:84-104 | a board won by teamA on row 2 becomes a teamB win once teamB fills row 0, because row 0 is scanned first |
| RoomModel.Room.constructor | backend/models/Room.js:4-53 | a new room has empty rosters, no board and no settings, is not started, and has an empty ledger, no marks and no winner; it satisfies the room invariant |
| RoomModel.Room.SolvedIffMarked | backend/models/Room.js:58-65 | in a valid room, `isSolved(row, col)` holds exactly when `getGameState(row, col)` has a mark, and that mark is the claiming team's symbol |
| RoomModel.Room.CheckWin | backend/models/Room.js:70-119 | the imperative scan returns the evaluator's outcome for the room's marks and changes nothing |
| RoomModel.Room.CopyMarks | backend/models/Room.js:71-82 | a new 3x3 array whose cell (i, j) holds the mark under key "i,j", or undefined |
| RoomModel.Room.AllCellsFilled | backend/models/Room.js:106-116 | the scan reports a draw exactly when all nine cells hold a truthy mark |
| RoomManager.CreateRoom | backend/services/roomManager.js:5-28 | a fresh, valid room under the given id with empty rosters, no board, not started, empty ledger and no winner |
| RoomManager.JoinRostersMeaning | backend/services/roomManager.js:35-46 | refused exactly when the chosen team already has two other players. Otherwise the handle is last in its team and appears there once, and it is absent from the other team. Every other player's count on each roster is unchanged. Any code but 'A' means teamB |
| RoomManager.MoveToTeam | backend/services/roomManager.js:35-46 | the filter-and-push steps compute the `JoinRosters` rosters, or the refusal |
| RoomManager.JoinKeepsRostersValid | backend/services/roomManager.js:35-48 | a join keeps both rosters within two players, free of repeats and disjoint |
| RoomManager.JoinRoom | backend/services/roomManager.js:30-54 | fails when the room is missing or already started, or when the join is refused, and then leaves the room unchanged. On success the rosters are the `JoinRosters` result and no other field changes. The room stays valid |
| RoomManager.StartGame | backend/services/roomManager.js:56-75 | fails, with no change, for a missing room, a started game or an empty team. Otherwise it returns the provisioned board or its error. On success the room holds the board and the settings, is started, and keeps its other fields |
| RoomManager.GetPlayerTeam | backend/services/roomManager.js:97-108 | answers a code exactly when the handle is on either roster of an existing room. The code is 'A' or 'B', and it is 'A' exactly for a teamA member |
| RoomManager.PlayerTeamB | backend/services/roomManager.js:101-103 | in a valid room, 'B' means exactly membership of teamB |
| RoomRoutes.ClaimantTeamMatchesPlayerTeam | backend/routes/roomRoutes.js:52 | the route's 'teamA'/'teamB' and the service's 'A'/'B' name the same team for every handle; both are absent for a non-member |
| RoomRoutes.ClaimKeys | backend/routes/roomRoutes.js:61-62 | one key per reported cell, in report order, built from its row and column |
| RoomRoutes.ClaimedCells | backend/routes/roomRoutes.js:61-73 | after the claim loop a key is present exactly when it was present before or was reported. An existing entry is never overwritten. Every new key gets the request's claim |
| RoomRoutes.ClaimedNothingNew | backend/routes/roomRoutes.js:59-73 | when every reported key is already claimed, the map is unchanged |
| RoomRoutes.ClaimKeepsLedgerMatchesMarks | backend/routes/roomRoutes.js:65-70 | claiming the same keys in the ledger and the marks keeps equal key sets, with 'X' for teamA claims and 'O' for teamB claims |
| RoomRoutes.ClaimCells | backend/routes/roomRoutes.js:59-73 | the loop leaves the ledger and the marks as the claim step over the reported keys. `updated` is true exactly when some reported key was unclaimed. Rosters, phase, board, settings and winner are kept, and the room stays valid |
| RoomRoutes.NothingNewChangesNothing | backend/routes/roomRoutes.js:59-82 | a request that claims nothing new leaves the ledger and the marks as they were |
| RoomRoutes.FirstClaimStands | backend/routes/roomRoutes.js:61-73 | a cell keeps its first claimant whatever later requests report |
| RoomRoutes.UpdateRoom | backend/routes/roomRoutes.js:33-95 | 400 for a missing id or handle, 404 for an unknown room, 400 before the start and 403 for a non-member; each leaves the room and the cache unchanged. A failed solved-check is a 500 and leaves the room unchanged. Otherwise the unclaimed reported cells go to the player's team. The winner is re-evaluated only when something was claimed, and set only when not null. The reply carries the new ledger, marks and winner |
| RoomRoutes.ResolveClaims | backend/routes/roomRoutes.js:57-89 | for an admitted request: a failed solved-check is a 500 and leaves the room unchanged. Otherwise the unclaimed reported cells go to the team, `updated` says whether any did, and the winner is re-evaluated only then. The cache is updated as `Fetch` says and the room stays valid |
| RoomRoutes.RecordOutcome | backend/routes/roomRoutes.js:75-80 | the winner becomes the evaluator's outcome when that is not null and stays otherwise; the ledger, marks and every other field are kept |
| RoomRoutes.JoinRoute | backend/routes/roomRoutes.js:97-114 | a missing room id, username or team is a 400 with no change. Otherwise it succeeds exactly when `joinRoom` would, with the rosters it produces; a refusal is a 400 with no change |
| RoomRoutes.StartRoute | backend/routes/roomRoutes.js:116-167 | 400 for a missing id, 404 for an unknown room and 400 for a started game. An empty team or a provider error is a 500. On success the room is started with the board and settings, and the reply carries them with the rosters and start time. Every failure leaves the room unchanged |
| SocketGateway.Enter | backend/socket.js:17-23 | after joining, the current room is the new id and the connection is in its group. A truthy previous room other than the new one has been left. No other group changes |
| SocketGateway.Leave | backend/socket.js:243-245 | after leaving, no current room and not in the named group; no other group changes |
| SocketGateway.Drop | backend/socket.js:262-268 | a truthy current room is left and forgotten; otherwise nothing changes |
| SocketGateway.EnterKeepsOneGroup | backend/socket.js:17-23 | from a tracked state, joining a non-empty room id leaves the connection in exactly that one group |
| SocketGateway.DropLeavesNoGroup | backend/socket.js:262-268 | disconnecting a tracked connection leaves it in no group |
| SocketGateway.LeaveCurrentLeavesNoGroup | backend/socket.js:243-245 | leaving the current room leaves a tracked connection in no group |
| SocketGateway.LeaveElsewhereStrandsGroup | backend/socket.js:232-245 | leaving under another room's id forgets the current room but stays in its group. A later join then leaves the connection in two groups |
| SocketGateway.Connection.constructor | backend/socket.js:11 | a new connection has no current room and is in no group |
| SocketGateway.Connection.JoinRoom | backend/socket.js:13-42 | the membership moves as `Enter` says, even for an unknown room. A found room is acknowledged and broadcast to the group. A missing one is refused, and a null update is sent to the sender |
| SocketGateway.Connection.ReconnectPlayer | backend/socket.js:111-195 | an unknown room is refused with no move. A roster member gets `getPlayerTeam`'s code, rejoins the group as `Enter` says, and the room is broadcast. A non-member is refused with a message that depends on whether the game started, and the connection does not move |
| SocketGateway.Connection.LeaveRoom | backend/socket.js:232-260 | an unknown room is refused and nothing changes. Otherwise every occurrence of the handle leaves both rosters, other players keep their order, and no other room field changes. The connection leaves as `Leave` says and the room stays valid |
| SocketGateway.Connection.Disconnect | backend/socket.js:262-268 | the membership changes as `Drop` says; no room is touched |
| SocketGateway.JoinTeam | backend/socket.js:44-61 | broadcasts to the group exactly when `joinRoom` succeeds, with the rosters it produces. Otherwise it sends an error to the sender only and leaves the room unchanged |
| SocketGateway.WithoutKeepsRostersValid | backend/socket.js:239-240 | removing a handle from valid rosters keeps them valid |
| SocketGateway.LeaveUndoesJoin | backend/socket.js:239-240 | leaving after a join puts every other player back where they were before the join, in order |
| GameLogic.IndexOfKey | backend/services/gameLogic.js:24-31 | the found position holds an entry with the key; None means no entry has it |
| GameLogic.MergedUniqueKeys | backend/services/gameLogic.js:24-31 | the OR-mode merge has one entry per `contestId-index` key |
| GameLogic.MergedFromInput | backend/services/gameLogic.js:24-31 | every merged entry is an input problem with a contest id and an index |
| GameLogic.MergedCoversKeys | backend/services/gameLogic.js:24-31 | every well-formed input problem's key is present in the merge |
| GameLogic.MergedKeepsLast | backend/services/gameLogic.js:24-31 | the entry kept under a key is the last input problem with that key |
| GameLogic.Flatten | backend/services/gameLogic.js:24 | a problem is in the flattened list exactly when it is in one of the lists |
| GameLogic.FetchEach | backend/services/gameLogic.js:19-21 | succeeds exactly when every tag's request does, and then holds each tag's list at that tag's position |
| GameLogic.ModeSelection | backend/services/gameLogic.js:3-12 | no tags or MIXED mode use the whole catalogue. AND mode makes one request for the tags joined with ';'. An OR-mode failure carries the fixed message |
| GameLogic.OrModeMerge | backend/services/gameLogic.js:14-35 | OR mode fails exactly when some tag's request fails. On success the keys are unique, every entry is a well-formed problem of some tag's list, and every such problem's key is present |
| GameLogic.GetProblemsForTags | backend/services/gameLogic.js:3-36 | the method with the map-filling loop computes the mode-selected, merged problem list |
| GameLogic.FilterByRating | backend/services/gameLogic.js:38-49 | a non-list gives [] and a non-number bound is an error. Otherwise the result holds exactly the problems with a truthy rating in the inclusive range |
| GameLogic.GetUnsolvedProblems | backend/services/gameLogic.js:51-61 | a non-list gives []; otherwise exactly the well-formed problems whose key is not in the solved set |
| GameLogic.SelectRandomProblems | backend/services/gameLogic.js:63-70 | min(count, n) problems, each taken from the input no more often than it occurs there |
| GameLogic.SolvedByAllKeys | backend/services/gameLogic.js:101-110 | the collection succeeds exactly when every player's request does, and then holds exactly the keys some player solved |
| GameLogic.SolvedByAllCovers | backend/services/gameLogic.js:101-113 | a successful collection holds every solved key of every listed player |
| GameLogic.CandidatesEligible | backend/services/gameLogic.js:91-114 | every candidate is well-formed, rated within the settings' range and one of the fetched problems |
| GameLogic.CandidatesUnsolved | backend/services/gameLogic.js:101-113 | no candidate has been solved by any player of either team |
| GameLogic.SplitBoard | backend/services/gameLogic.js:123-125 | a 3x3 board whose cell (i, j) is pick 3i+j |
| GameLogic.CreateGameBoard | backend/services/gameLogic.js:72-130 | missing settings and a missing difficulty bound are errors. Otherwise the answer is the layout of the gathered candidates |
| GameLogic.LayoutCases | backend/services/gameLogic.js:116-125 | an error on the way to the candidates is passed on, and fewer than nine candidates is an error naming their number. Otherwise the board is 3x3, holds candidates only (none more often than it is a candidate), and its cell (i, j) is shuffled candidate 3i+j |
| GameLogic.GatherCandidates | backend/services/gameLogic.js:91-114 | the method computes the candidate list: fetched, rated within range, solved by no player |
| GameLogic.CollectSolved | backend/services/gameLogic.js:102-110 | the loop gathers the union of the players' solved keys, or the first failure |
| Codeforces.AcceptedKeys | backend/services/codeforcesService.js:59-61 | a key is listed exactly when some submission with verdict OK and a problem has it |
| Codeforces.GetSolvedProblemsCases | backend/services/codeforcesService.js:51-79 | status OK with a list gives the distinct keys of the accepted problems. Status OK without a list, or HTTP 400, gives []. Exactly the other outcomes are errors |
| Codeforces.Fetch | backend/services/codeforcesService.js:98-129 | a request succeeds and leaves the cache as it was exactly when a fresh entry exists. It fails exactly when there is no fresh entry and the reply is not OK, and a failure leaves the cache alone. A success answers what the cache then holds for the handle, which is fresh. A reply that is fetched is the one answered and is stamped with the clock read once the reply is in. Entries for other handles never change |
| Codeforces.ServedFromCacheForAMinute | backend/services/codeforcesService.js:98-121 | after a reply is stored, every request in the 60000 ms after the reply came in is answered from the cache, whatever the API says |
| Codeforces.ExpiresAfterAMinute | backend/services/codeforcesService.js:102 | an entry 60000 ms old or older is not served |
| Codeforces.SubmissionsCache.constructor | backend/services/codeforcesService.js:7 | the cache starts empty |
| Codeforces.SubmissionsCache.GetUserSubmissions | backend/services/codeforcesService.js:98-129 | the answer and the new cache are what `Fetch` gives, the stored entry stamped with the clock read after the reply |
| Codeforces.RowHitsCells | backend/services/codeforcesService.js:147-152 | a row reports exactly its cells, from the start column on, whose problem id was collected |
| Codeforces.RowHitsOrdered | backend/services/codeforcesService.js:147-152 | a row reports its cells left to right |
| Codeforces.BoardHitsCells | backend/services/codeforcesService.js:146-153 | the board reports exactly its cells whose problem id was collected |
| Codeforces.BoardHitsOrdered | backend/services/codeforcesService.js:146-153 | the board reports its cells in strictly increasing row-major order |
| Codeforces.SolvedOnBoardCells | backend/services/codeforcesService.js:132-160 | a cell is reported exactly when it is on the board and its `contestId+index` id is an accepted submission's id; in row-major order |
| Codeforces.SolvedCellsInGrid | backend/services/codeforcesService.js:146-153 | on a 3x3 board every reported cell is a grid cell |
| Codeforces.CheckSolvedProblems | backend/services/codeforcesService.js:132-160 | the method returns the reported cells, or the error, for the submissions fetched through the cache, and leaves the cache as `Fetch` does |
| Codeforces.CollectAcceptedIds | backend/services/codeforcesService.js:137-142 | the loop fails exactly when an accepted submission has no problem; otherwise it returns the set of accepted ids |
| Codeforces.ScanBoard | backend/services/codeforcesService.js:144-153 | the nested loop reports the same cells, in the same order, as the board scan |
| Codeforces.ScanRow | backend/services/codeforcesService.js:147-152 | the inner loop reports a row's solved cells left to right |
| Leaderboard.UserTeam | backend/routes/leaderboardRoutes.js:60-62 | the player's team is teamA exactly when the handle is on teamA |
| Leaderboard.Other | backend/routes/leaderboardRoutes.js:62 | the opponent differs from the player's team |
| Leaderboard.CreditedAddUp | backend/routes/leaderboardRoutes.js:67-99 | the two teams' counts add up to the number of claimed cells |
| Leaderboard.ResultFor | backend/routes/leaderboardRoutes.js:106-112 | the result is Draw exactly for a draw, Win exactly when the player's team won, and Loss exactly when the other team won |
| Leaderboard.EntryForMeaning | backend/routes/leaderboardRoutes.js:55-136 | an entry names the player's team and roster with its claim count, and the other team with its count. The total is the number of claimed cells. The result is read from the winner |
| Leaderboard.OpponentsDisagree | backend/routes/leaderboardRoutes.js:106-112 | players on opposite rosters get opposite results when a team won, and both get Draw in a draw |
| Leaderboard.CountSolved | backend/routes/leaderboardRoutes.js:67-99 | the loop's two counters are the numbers of ledger entries credited to each team |
| Leaderboard.StatsAddUp | backend/routes/leaderboardRoutes.js:139-144 | wins, losses and draws add up to the number of games |
| Leaderboard.History | backend/routes/leaderboardRoutes.js:40-144 | one entry per finished game with the handle on a roster, in the given order. Each entry is that game's summary, and the stats count the entries' results |
| GameSettings.RatingStepsRange | frontend/src/components/GameSettingsModal.js:13 | 28 ratings, 800 to 3500 in steps of 100; a value is offered exactly when it is a multiple of 100 in that range |
| GameSettings.ToggleTag | frontend/src/components/GameSettingsModal.js:21-27 | the tag's membership flips, other tags keep theirs, and an absent tag is appended at the end |
| GameSettings.ToggleTwice | frontend/src/components/GameSettingsModal.js:21-27 | toggling twice restores an unselected tag's list exactly; a selected tag ends up moved to the end |
| GameSettings.ToggleKeepsDistinct | frontend/src/components/GameSettingsModal.js:21-27 | toggling keeps the selection free of repeats |
| GameSettings.HandleSaveCases | frontend/src/components/GameSettingsModal.js:29-54 | a non-MIXED mode without tags and a minimum not below the maximum are refused with their alerts. Otherwise the save succeeds, carrying the tags, mode and both ratings unchanged, with min < max. The not-a-number alert never occurs |
| GameSettings.InitialSaves | frontend/src/components/GameSettingsModal.js:16-19 | the modal as opened saves MIXED with no tags over 800..1800 |
| GameSettings.ChooseRating | frontend/src/components/GameSettingsModal.js:56-61 | choosing an option of the selector sets the rating to that option |
| GameSettings.NonNumericKeepsRating | frontend/src/components/GameSettingsModal.js:56-61 | input without a digit leaves the rating unchanged |
| Countdown.CalculateTimeLeft | frontend/src/components/CountdownTimer.js:7-22 | expired exactly when the end time createdAt + 9000000 ms is reached. Otherwise minutes and seconds are below 60, and h·3600000 + m·60000 + s·1000 ≤ difference < that + 1000 |
| Countdown.SplitMillis | frontend/src/components/CountdownTimer.js:17-19 | for a positive difference the hour, minute and second split has minutes and seconds below 60 and lies less than a second below the difference |
| Countdown.TimerText | frontend/src/components/CountdownTimer.js:24-27 | Loading exactly when there is no creation time; otherwise the computed time left |
| Countdown.ReadingIsUnique | frontend/src/components/CountdownTimer.js:17-19 | the reading is the only (h, m, s) with m, s below 60 whose time lies within a second below the difference |
| Countdown.FreshRoom | frontend/src/components/CountdownTimer.js:9 | a room just created shows 2h 30m 0s, and no reading after creation shows more than two hours |
| Countdown.Monotone | frontend/src/components/CountdownTimer.js:11-19 | a later reading never shows more time left, and once expired the timer stays expired |
| Chat.AfterSendKeepsNewest | frontend/src/components/Chat.js:97-100 | after a send the list ends with the new message, is preceded by the most recent earlier messages, and holds at most 100 |
| Chat.Recent | frontend/src/components/Chat.js:27-30 | the loaded list holds exactly the saved messages younger than 24 hours, read at strictly increasing positions of the saved list, so in saved order |
| Chat.RecentIdempotent | frontend/src/components/Chat.js:27-30 | loading a loaded list again at the same time changes nothing |
| Chat.Persisted | frontend/src/components/Chat.js:40-55 | the stored list is the last min(n, 100) of the n messages (the last min(n, 50) when the write does not fit): a suffix of exactly that length |
| Chat.Shown | frontend/src/components/Chat.js:170-171 | exactly the stored messages on the active channel, read at strictly increasing positions of the list, so in stored order |
| Chat.SentIsShownLast | frontend/src/components/Chat.js:83-100 | a message just sent is the last one shown on its channel |
| Chat.OtherTeamChannelRefused | frontend/src/components/Chat.js:66-69 | a teamA reader never takes in a teamB-channel message unless teamB is the open channel |
| Chat.ChatPanel.constructor | frontend/src/components/Chat.js:9-17 | a panel opens with no messages, an empty draft, no file, the general channel and nothing sent |
| Chat.ChatPanel.Send | frontend/src/components/Chat.js:79-114 | a blank draft with no file changes nothing. Otherwise it emits a message on the active channel with the trimmed draft and the file, and remembers its id. The list becomes the previous one plus the message, cut to its last 100. The draft and file are cleared |
| Chat.ChatPanel.ForgetSent | frontend/src/components/Chat.js:110-113 | the id leaves the sent set; nothing else changes |
| Chat.ChatPanel.Receive | frontend/src/components/Chat.js:63-72 | a message is appended exactly when it was not sent here and is on the active channel or the reader's team channel; nothing else changes |
| Chat.ChatPanel.LoadEffect | frontend/src/components/Chat.js:20-37 | a saved list is replaced by its recent messages, unreadable storage empties the list, and no saved entry keeps the list; the channel, draft, file and sent ids are kept |
| Chat.ChatPanel.OpenChannel | frontend/src/components/Chat.js:145-161 | the channel becomes active. Choosing the channel already open leaves the list as it is; choosing another one runs the load effect for it |
| JsBuiltins.Dedup | backend/services/codeforcesService.js:62 | `[...new Set(xs)]` has no repeats and the same members |
| JsBuiltins.Trim | frontend/src/components/Chat.js:80 | the trimmed text is the middle of the text with only white space cut off before and after it; it is empty exactly when the text is all white space, and otherwise starts and ends with a character that is not white space. White space is the ECMAScript WhiteSpace and LineTerminator set, Unicode spaces included |
| JsBuiltins.TrimIdempotent | frontend/src/components/Chat.js:80-89 | trimming trimmed text changes nothing |
| JsBuiltins.KeptIncreasing | frontend/src/components/Chat.js:27-30 | the positions `filter` keeps lie in the list and increase strictly |
| JsBuiltins.KeptReads | frontend/src/components/Chat.js:27-30 | the filtered list is the list read at the kept positions |
| JsBuiltins.KeptComplete | frontend/src/components/Chat.js:27-30 | every position whose element is accepted is kept |
| Chat.NoBreakSpaceTrimmed | frontend/src/components/Chat.js:80-89 | a draft of one no-break space is blank, and a trailing no-break space is cut off the content |
| JsBuiltins.ParseIntOfNumberText | frontend/src/components/GameSettingsModal.js:43-48 | `parseInt` of an integer's decimal text gives the integer back |
| JsBuiltins.Last | frontend/src/components/Chat.js:99 | `slice(-n)` is the suffix of length min(n, length) |
| JsBuiltins.Without | backend/services/roomManager.js:36-37 | filtering out a value removes every occurrence and keeps the count of every other value |
| JsBuiltins.FilterCounts | backend/services/gameLogic.js:48 | `filter` keeps every accepted element as often as it occurs and drops the others |
| JsBuiltins.WithoutAppend | backend/socket.js:239-240 | filtering a value out of a concatenation filters each part |

## Left out

- MongoDB persistence is not modelled: `save`, `findOne`, the schema validators and the TTL index. A room is an in-memory object, and a route's changes take effect when the method returns.
- One request is handled at a time. Interleavings of concurrent requests are not modelled, because the source's claim path is a plain read, check, insert and save.
- The 500 replies for database or other thrown exceptions are not modelled, except the solved-check and board-provider failures that the model passes on.
- Socket.io transport is not modelled. Emits are returned as values naming their audience, and a room update says only whether it carries a room, not the room's contents.
- The socket `gameStarted` handler is not modelled. It overwrites the room's phase, board and settings with client data and saves, without checking that the game has not started, that the sender is a member or that the board is 3x3. The room invariant `RoomModel.Room.Valid` (a started room holds a 3x3 board) therefore assumes that the board written there is the one `/start` provisioned, which is what the game's own client sends.
- The `gameUpdated` relay of client-supplied state, `player-updated`, `error` and the team-chat branch of `chatMessage` only forward client data. They make no decision and are not modelled.
- The axios HTTP calls, `getAllProblems`, `getProblemsByTag` and the timing-based `rateLimit` are not modelled. Their outcomes are arguments: `all`, `byTag` and the `UserStatusReply`.
- GameLogic.CreateGameBoard: each player's `getSolvedProblems` answer is the argument `solvedOf`, not a call of `Codeforces.GetSolvedProblems`.
- `Promise.all` over the per-tag and per-player requests is taken in list order: the first failing request in order decides the error.
- GameLogic.SelectRandomProblems: states only the length and that the picks come from the input. `shuffle` is an argument required to be a permutation, so no claim about randomness is made.
- The random room id from `crypto.randomBytes` is an argument of `RoomManager.CreateRoom`.
- RoomModel.Room.constructor: the schema's `createdAt` default is the clock reading passed in.
- The floating-point `winRate` and its `toFixed` are left out of `Leaderboard.Stats`.
- Leaderboard.History: the sort by `createdAt`, newest first, is not modelled; the games are taken in the order the query returns them.
- Exception texts raised by the JavaScript runtime (reading a property of null or undefined) are modelled as fixed strings, and only where the source turns them into replies.
- The HTTP 400 "Failed to join room" and 500 message texts are kept. Only the `error` field of a response body is modelled, not its other fields.
- A problem's contest id is a natural number, and 0 counts as missing. That is how the source's truthiness test treats it.
- RoomRoutes.UpdateRoom: every claim in one request has the same `solvedAt`, the clock reading once the submissions are in (`replyAt`). The freshness test uses the clock reading when the request arrives (`now`).
- Clock readings (`Date.now()`, `new Date()`) are arguments. Readings taken later in the same request are never smaller, which is why `Codeforces.Fetch` requires `now <= replyAt`.
- RoomRoutes.StartRoute: `gameStartTime` is the clock reading, and it is only returned, never stored.
- SocketGateway.Connection.ReconnectPlayer: the handler's second branch, for a started game, repeats the roster test that has just failed. It cannot succeed, so only its error is modelled.
- Countdown: `new Date(createdAt)` is modelled as a millisecond count, or none when `createdAt` is missing.
- Countdown.Render: `String(n)` is modelled as decimal text, without the exponent form JavaScript uses for very large numbers.
- React rendering, the emoji picker, `FileReader`, local storage access and the `setTimeout`/`setInterval` timers are not modelled. What storage holds, and whether a write fits, are arguments.
- Chat.Persisted: a second failing storage write, which the source only logs, is not modelled.
- Client-side socket wiring, the pages, the board and player-list components, `api.js` and the server entry point are not part of this model. They hold no independent logic.

## Notes on the code

The code allows some behaviour that a reader of the game's description might not expect. Each item below is proved about the model as the code is written.

- A winner is not final. The claim route does not check `winner`, so claims keep being accepted after a win. The evaluator scans rows first, so a later claim can turn a teamA win into a teamB win (`RoomModel.WinnerCanChange`).
- `leaveRoom` leaves the group named in the request and clears `currentRoom` whatever it held. Leaving under another room's id therefore strands the connection in its old group (`SocketGateway.LeaveElsewhereStrandsGroup`).
- Leaving is not permanent for a room that has not started. A player who left can join again, since `joinRoom` only refuses a started game or a full team.
- Messages that arrive over the socket are appended without the cut to 100 that a send applies (`Chat.ChatPanel.Receive`).
- `handleSave`'s "Invalid rating values" alert cannot be reached: both ratings are integers chosen from the selector, and `parseInt` of their text gives them back (`GameSettings.HandleSaveCases`).

=== FILE: catalog.dfy ===
/** Problem references as the Codeforces catalogue hands them out, the two
    textual identities the game builds from them, the game settings that
    drive board provisioning, and the shape of a board. */
module Catalog {
  import opened Wrappers
  import opened JsBuiltins

  /** A catalogue problem: contest number, problem index ("A", "B1", ...)
      and an optional rating. A missing contest number or index is
      represented by its falsy value (0, ""). */
  datatype ProblemRef = ProblemRef(contestId: nat, index: string, rating: Option<int>)

  /** `${contestId}-${index}`: the identity used for de-duplication and for
      the "already solved" set. */
  function ProblemKey(p: ProblemRef): string
  {
    DecimalText(p.contestId) + "-" + p.index
  }

  /** `${contestId}${index}`: the identity used when checking a board
      against a player's accepted submissions (no separator). */
  function ProblemId(p: ProblemRef): string
  {
    DecimalText(p.contestId) + p.index
  }

  /** `problem && problem.contestId && problem.index`. */
  predicate HasKeyFields(p: ProblemRef)
  {
    p.contestId != 0 && p.index != ""
  }

  /** A rating bound as it arrives in a settings object: absent, a number,
      or a value of some other type (a string, null, ...). Ratings are
      whole numbers throughout the game. */
  datatype Bound = Undefined | Num(n: int) | NonNumber

  /** The settings object a game is started with (after the destructuring
      defaults `tags = []` and `tagMode = 'OR'` are applied). */
  datatype Settings = Settings(tags: seq<string>, tagMode: string, minDifficulty: Bound, maxDifficulty: Bound)

  type Board = seq<seq<ProblemRef>>

  /** Three rows of three problems. */
  predicate IsGrid(b: Board)
  {
    |b| == 3 && forall i :: 0 <= i < 3 ==> |b[i]| == 3
  }
}

=== FILE: chat.dfy ===
/** The room chat of frontend/src/components/Chat.js: the local message
    list and its bound, what is loaded from and saved to local storage, the
    filter on incoming messages and the filter on what is shown. The
    component's state is the class `ChatPanel`; the clock reading and the
    stored list are arguments. */
module Chat {
  import opened Wrappers
  import opened JsBuiltins

  /** `MAX_MESSAGES`. */
  const MaxMessages: nat := 100
  /** `MAX_MESSAGE_AGE`: 24 hours in milliseconds. */
  const MaxMessageAge: int := 24 * 60 * 60 * 1000

  /** A selected file `{ name, type, data }`. */
  datatype Attachment = Attachment(name: string, mime: string, data: string)

  /** A chat message; `id` and `timestamp` are the send time in
      milliseconds. */
  datatype Message = Message(
    id: int,
    handle: string,
    team: string,
    channel: string,
    timestamp: int,
    content: string,
    file: Option<Attachment>)

  /** What local storage holds under the channel's key: nothing, text that
      does not parse, or a saved list. */
  datatype Saved = Nothing | Unreadable | Saved(messages: seq<Message>)

  /** The local list after sending `m`: `[...prev, message].slice(-100)`. */
  function AfterSend(messages: seq<Message>, m: Message): seq<Message>
  {
    Last(messages + [m], MaxMessages)
  }

  /** After a send the list ends with the new message, preceded by the most
      recent of the earlier ones, and holds at most 100 messages. */
  lemma AfterSendKeepsNewest(messages: seq<Message>, m: Message)
    ensures var r := AfterSend(messages, m);
            && |r| == (if |messages| < MaxMessages then |messages| + 1 else MaxMessages)
            && r[|r| - 1] == m
            && r[..|r| - 1] == messages[|messages| + 1 - |r|..]
  {
    var all := messages + [m];
    var r := AfterSend(messages, m);
    assert r[..|r| - 1] == all[|all| - |r|..|all| - 1];
  }

  function IsRecent(now: int): Message -> bool
  {
    (m: Message) => now - m.timestamp < MaxMessageAge
  }

  /** The loaded list: exactly the saved messages less than 24 hours old,
      in saved order (read at strictly increasing positions of `saved`). */
  function Recent(saved: seq<Message>, now: int): (r: seq<Message>)
    ensures forall m :: m in r <==> m in saved && now - m.timestamp < MaxMessageAge
    ensures |Kept(saved, IsRecent(now))| == |r|
    ensures forall k :: 0 <= k < |r| ==>
              Kept(saved, IsRecent(now))[k] < |saved| && r[k] == saved[Kept(saved, IsRecent(now))[k]]
    ensures forall k, l :: 0 <= k < l < |r| ==> Kept(saved, IsRecent(now))[k] < Kept(saved, IsRecent(now))[l]
  {
    KeptIncreasing(saved, IsRecent(now));
    KeptReads(saved, IsRecent(now));
    Filter(saved, IsRecent(now))
  }

  /** The list written to storage: the last min(n, 100) of the n messages,
      or the last min(n, 50) when the first write does not fit. */
  function Persisted(messages: seq<Message>, fits: bool): (r: seq<Message>)
    ensures |r| <= |messages| && |r| <= (if fits then MaxMessages else MaxMessages / 2)
    ensures r == messages[|messages| - |r|..]
    ensures |messages| <= (if fits then MaxMessages else MaxMessages / 2) ==> r == messages
    ensures |r| == if |messages| <= (if fits then MaxMessages else MaxMessages / 2) then |messages|
                   else (if fits then MaxMessages else MaxMessages / 2)
  {
    if fits then Last(messages, MaxMessages) else Last(messages, MaxMessages / 2)
  }

  /** The incoming-message filter: not one this panel sent, and on the
      active channel or on the reader's own team channel. */
  predicate Accepts(sent: set<int>, activeChannel: string, team: string, m: Message)
  {
    && m.id !in sent
    && (|| m.channel == activeChannel
        || (m.channel == "teamA" && team == "teamA")
        || (m.channel == "teamB" && team == "teamB"))
  }

  function OnChannel(channel: string): Message -> bool
  {
    (m: Message) => m.channel == channel
  }

  /** What the panel shows: the stored messages on the active channel, in
      stored order (read at strictly increasing positions of `messages`). */
  function Shown(messages: seq<Message>, channel: string): (r: seq<Message>)
    ensures forall m :: m in r <==> m in messages && m.channel == channel
    ensures |Kept(messages, OnChannel(channel))| == |r|
    ensures forall k :: 0 <= k < |r| ==>
              && Kept(messages, OnChannel(channel))[k] < |messages|
              && r[k] == messages[Kept(messages, OnChannel(channel))[k]]
    ensures forall k, l :: 0 <= k < l < |r| ==>
              Kept(messages, OnChannel(channel))[k] < Kept(messages, OnChannel(channel))[l]
  {
    KeptIncreasing(messages, OnChannel(channel));
    KeptReads(messages, OnChannel(channel));
    Filter(messages, OnChannel(channel))
  }

  /** A message appended on a channel is the last one shown there. */
  lemma ShownAppend(pre: seq<Message>, m: Message)
    ensures Shown(pre + [m], m.channel) == Shown(pre, m.channel) + [m]
  {
    var keep := OnChannel(m.channel);
    FilterAppend(pre, [m], keep);
    assert keep(m);
    assert [m][1..] == [];
  }

  /** A message just sent on the active channel is the last one shown. */
  lemma SentIsShownLast(messages: seq<Message>, m: Message)
    ensures var shown := Shown(AfterSend(messages, m), m.channel);
            |shown| > 0 && shown[|shown| - 1] == m
  {
    var r := AfterSend(messages, m);
    AfterSendKeepsNewest(messages, m);
    var pre := r[..|r| - 1];
    assert r == pre + [m];
    ShownAppend(pre, m);
  }

  /** A loaded list is already free of stale messages: loading it again at
      the same time changes nothing. */
  lemma {:induction false} RecentIdempotent(saved: seq<Message>, now: int)
    ensures Recent(Recent(saved, now), now) == Recent(saved, now)
  {
    FilterKeepsAll(Recent(saved, now), IsRecent(now));
  }

  /** A reader on a team never takes in the other team's channel unless it
      is the channel they are looking at. */
  lemma OtherTeamChannelRefused(sent: set<int>, activeChannel: string, m: Message)
    requires m.channel == "teamB" && activeChannel != "teamB"
    ensures !Accepts(sent, activeChannel, "teamA", m)
  {
  }

  /** `!newMessage.trim() && !selectedFile`: nothing to send. */
  predicate Blank(draft: string, file: Option<Attachment>)
  {
    Trim(draft) == [] && file.None?
  }

  /** A draft of a lone no-break space is blank, and the no-break space
      after a word is cut off the content sent. */
  lemma NoBreakSpaceTrimmed()
    ensures Blank([0xA0 as char], None)
    ensures Trim(['h', 'i', 0xA0 as char]) == ['h', 'i']
  {
    var s := ['h', 'i', 0xA0 as char];
    assert Lead(s) == 0;
    assert s[..2] == ['h', 'i'];
    assert Trail(s) == 1;
  }

  /** The chat panel of one player in one room. */
  class ChatPanel {
    const roomId: string
    const handle: string
    const team: string
    var messages: seq<Message>
    var draft: string
    var selectedFile: Option<Attachment>
    var activeChannel: string
    /** `sentMessagesRef`: ids of messages sent in the last five seconds. */
    var sent: set<int>

    /** A panel as mounted: no messages, nothing typed, the general
        channel, nothing sent. */
    constructor (roomId: string, handle: string, team: string)
      ensures this.roomId == roomId && this.handle == handle && this.team == team
      ensures messages == [] && draft == "" && selectedFile == None
      ensures activeChannel == "general" && sent == {}
    {
      this.roomId, this.handle, this.team := roomId, handle, team;
      messages, draft, selectedFile := [], "", None;
      activeChannel, sent := "general", {};
    }

    /** The storage key `chat_${roomId}_${activeChannel}`. */
    function StorageKey(): string
      reads this
    {
      "chat_" + roomId + "_" + activeChannel
    }

    /** `handleSendMessage` at time `now`: nothing happens when the trimmed
        draft is empty and no file is selected; otherwise a message on the
        active channel carrying the trimmed draft and the file is emitted,
        its id is remembered, the list becomes `AfterSend` and the draft
        and file are cleared. */
    method Send(now: int) returns (emitted: Option<Message>)
      modifies this
      ensures Blank(old(draft), old(selectedFile)) ==>
                emitted == None && messages == old(messages) && sent == old(sent)
                && draft == old(draft) && selectedFile == old(selectedFile)
      ensures !Blank(old(draft), old(selectedFile)) ==>
                && emitted == Some(Message(now, handle, team, old(activeChannel), now, Trim(old(draft)), old(selectedFile)))
                && messages == AfterSend(old(messages), emitted.value)
                && sent == old(sent) + {now}
                && draft == "" && selectedFile == None
      ensures activeChannel == old(activeChannel)
    {
      if Blank(draft, selectedFile) {
        return None;
      }
      var message := Message(now, handle, team, activeChannel, now, Trim(draft), selectedFile);
      sent := sent + {now};
      messages := AfterSend(messages, message);
      draft, selectedFile := "", None;
      emitted := Some(message);
    }

    /** The five-second timer after a send: the id is forgotten. */
    method ForgetSent(id: int)
      modifies this
      ensures sent == old(sent) - {id}
      ensures messages == old(messages) && draft == old(draft) && selectedFile == old(selectedFile)
      ensures activeChannel == old(activeChannel)
    {
      sent := sent - {id};
    }

    /** The `chatMessage` listener: an accepted message is appended, with
        no cut to 100; any other leaves the list alone. */
    method Receive(m: Message)
      modifies this
      ensures messages == if Accepts(old(sent), old(activeChannel), team, m) then old(messages) + [m] else old(messages)
      ensures sent == old(sent) && draft == old(draft) && selectedFile == old(selectedFile)
      ensures activeChannel == old(activeChannel)
    {
      if m.id !in sent &&
         (m.channel == activeChannel || (m.channel == "teamA" && team == "teamA") ||
          (m.channel == "teamB" && team == "teamB")) {
        messages := messages + [m];
      }
    }

    /** The load effect, run on mount and whenever the active channel
        changes, at time `now`: a saved list is replaced by its recent
        messages, unreadable storage empties the list, and an empty key
        leaves the list as it was. */
    method LoadEffect(saved: Saved, now: int)
      modifies this
      ensures messages == match saved
                          case Nothing => old(messages)
                          case Unreadable => []
                          case Saved(list) => Recent(list, now)
      ensures activeChannel == old(activeChannel)
      ensures sent == old(sent) && draft == old(draft) && selectedFile == old(selectedFile)
    {
      match saved {
        case Nothing =>
        case Unreadable =>
          messages := [];
        case Saved(list) =>
          messages := Recent(list, now);
      }
    }

    /** A channel tab: choosing the channel already open changes nothing,
        since the load effect only runs when `activeChannel` changes;
        choosing another channel makes it active and runs the load effect
        for it. */
    method OpenChannel(channel: string, saved: Saved, now: int)
      modifies this
      ensures activeChannel == channel
      ensures channel == old(activeChannel) ==> messages == old(messages)
      ensures channel != old(activeChannel) ==>
                messages == match saved
                            case Nothing => old(messages)
                            case Unreadable => []
                            case Saved(list) => Recent(list, now)
      ensures sent == old(sent) && draft == old(draft) && selectedFile == old(selectedFile)
    {
      if channel != activeChannel {
        activeChannel := channel;
        LoadEffect(saved, now);
      }
    }

    /** The messages on screen. */
    function Displayed(): seq<Message>
      reads this
    {
      Shown(messages, activeChannel)
    }
  }
}

=== FILE: codeforces.dfy ===
/** The parts of backend/services/codeforcesService.js the game rules rest
    on: the de-duplicated list of a player's accepted problems
    (`getSolvedProblems`), the one-minute submissions cache
    (`getUserSubmissions`) and the scan of a board for problems the player
    has an accepted submission for (`checkSolvedProblems`). What the
    Codeforces API answers, and the current time, are arguments. */
module Codeforces {
  import opened Wrappers
  import opened JsBuiltins
  import opened Catalog

  /** One entry of a `user.status` result. */
  datatype Submission = Submission(verdict: string, problem: Option<ProblemRef>)

  /** How a `user.status` request ends: a response body whose `result` is
      either a list (Some) or something else (None), or an HTTP failure
      carrying its status code, the transport's error message and the
      API's `comment`, if any. */
  datatype UserStatusReply =
    | Body(status: string, result: Option<seq<Submission>>)
    | HttpFailure(httpStatus: int, message: string, comment: Option<string>)

  /** `error.response?.data?.comment || error.message`. */
  function FailureText(message: string, comment: Option<string>): string
  {
    if comment.Some? && comment.value != "" then comment.value else message
  }

  // ------------------------------------------------------ getSolvedProblems

  /** The `contestId-index` keys of the accepted submissions that carry a
      problem, in submission order, repeats included. */
  function AcceptedKeys(subs: seq<Submission>): (keys: seq<string>)
    ensures |keys| <= |subs|
    ensures forall k :: k in keys <==>
              exists i :: 0 <= i < |subs| && subs[i].verdict == "OK" && subs[i].problem.Some?
                          && ProblemKey(subs[i].problem.value) == k
  {
    if subs == [] then []
    else
      var rest := AcceptedKeys(subs[1..]);
      assert forall i :: 1 <= i < |subs| ==> subs[i] == subs[1..][i - 1];
      if subs[0].verdict == "OK" && subs[0].problem.Some? then [ProblemKey(subs[0].problem.value)] + rest
      else rest
  }

  /** `getSolvedProblems(handle)` for the given reply. */
  function GetSolvedProblems(handle: string, reply: UserStatusReply): Result<seq<string>, string>
  {
    match reply
    case Body(status, result) =>
      if status == "OK" && result.Some? then Success(Dedup(AcceptedKeys(result.value)))
      else if status == "OK" then Success([])
      else Failure("Failed to fetch solved problems: Failed to fetch solved problems for user " + handle)
    case HttpFailure(httpStatus, message, comment) =>
      if httpStatus == 400 then Success([])
      else Failure("Failed to fetch solved problems: " + FailureText(message, comment))
  }

  /** With status OK and a list, the answer is the distinct keys of the
      accepted submissions that carry a problem; with status OK and anything
      else, or an HTTP 400 (unknown handle), the empty list; every other
      outcome is an error. */
  lemma GetSolvedProblemsCases(handle: string, reply: UserStatusReply)
    ensures var r := GetSolvedProblems(handle, reply);
            && (reply.Body? && reply.status == "OK" && reply.result.Some? ==>
                  r.Success? && Distinct(r.value)
                  && forall k :: k in r.value <==>
                       exists s :: s in reply.result.value && s.verdict == "OK" && s.problem.Some? && ProblemKey(s.problem.value) == k)
            && (reply.Body? && reply.status == "OK" && reply.result.None? ==> r == Success([]))
            && (reply.HttpFailure? && reply.httpStatus == 400 ==> r == Success([]))
            && (r.Failure? <==> (reply.Body? && reply.status != "OK") || (reply.HttpFailure? && reply.httpStatus != 400))
  {
    if reply.Body? && reply.status == "OK" && reply.result.Some? {
      var subs := reply.result.value;
      var keys := AcceptedKeys(subs);
      forall k ensures k in keys ==> exists s :: s in subs && s.verdict == "OK" && s.problem.Some? && ProblemKey(s.problem.value) == k {
        if k in keys {
          var i :| 0 <= i < |subs| && subs[i].verdict == "OK" && subs[i].problem.Some? && ProblemKey(subs[i].problem.value) == k;
          assert subs[i] in subs;
        }
      }
    }
  }

  // ------------------------------------------------------ submissions cache

  /** How long a cached submissions list is served, in milliseconds. */
  const CacheDuration: int := 60 * 1000

  /** A cached `user.status` result and the time it was stored. */
  datatype CacheEntry = CacheEntry(submissions: Option<seq<Submission>>, timestamp: int)

  function CacheKey(handle: string): string
  {
    "submissions_" + handle
  }

  /** An entry is served while it is younger than the cache duration. */
  predicate IsFresh(entries: map<string, CacheEntry>, handle: string, now: int)
  {
    CacheKey(handle) in entries && now - entries[CacheKey(handle)].timestamp < CacheDuration
  }

  /** What `getUserSubmissions(handle)` answers for a request arriving at
      `now` whose API reply is in at `replyAt`, and the cache it leaves
      behind: a fresh entry is served as is; otherwise a status OK reply is
      stored under the handle with timestamp `replyAt` and returned, and
      every other reply is an error that leaves the cache alone. */
  function Fetch(entries: map<string, CacheEntry>, handle: string, now: int, replyAt: int, reply: UserStatusReply)
    : (r: (Result<Option<seq<Submission>>, string>, map<string, CacheEntry>))
    requires now <= replyAt
    ensures IsFresh(entries, handle, now) <==> r.0.Success? && r.1 == entries
    ensures r.0.Failure? <==> !IsFresh(entries, handle, now) && !(reply.Body? && reply.status == "OK")
    ensures r.0.Failure? ==> r.1 == entries
    ensures r.0.Success? ==>
              && CacheKey(handle) in r.1
              && r.0.value == r.1[CacheKey(handle)].submissions
              && IsFresh(r.1, handle, now)
    ensures !IsFresh(entries, handle, now) && r.0.Success? ==>
              r.0.value == reply.result && r.1[CacheKey(handle)].timestamp == replyAt
    ensures forall k :: k != CacheKey(handle) ==>
              (k in r.1 <==> k in entries) && (k in entries ==> r.1[k] == entries[k])
  {
    if IsFresh(entries, handle, now) then (Success(entries[CacheKey(handle)].submissions), entries)
    else
      match reply
      case Body(status, result) =>
        if status == "OK" then (Success(result), entries[CacheKey(handle) := CacheEntry(result, replyAt)])
        else (Failure("Failed to fetch submissions"), entries)
      case HttpFailure(_, message, _) => (Failure(message), entries)
  }

  /** Once a reply has been stored, every request for the same handle in the
      minute after the reply came in is answered from the cache, whatever
      the API would say, and leaves the cache as it is. */
  lemma {:induction false} ServedFromCacheForAMinute(
    entries: map<string, CacheEntry>, handle: string, now: int, replyAt: int, reply: UserStatusReply,
    later: int, laterReplyAt: int, laterReply: UserStatusReply)
    requires now <= replyAt && later <= laterReplyAt
    requires !IsFresh(entries, handle, now) && reply.Body? && reply.status == "OK"
    requires replyAt <= later < replyAt + CacheDuration
    ensures var stored := Fetch(entries, handle, now, replyAt, reply).1;
            Fetch(stored, handle, later, laterReplyAt, laterReply) == (Success(reply.result), stored)
  {
    var stored := Fetch(entries, handle, now, replyAt, reply).1;
    assert stored[CacheKey(handle)] == CacheEntry(reply.result, replyAt);
    assert IsFresh(stored, handle, later);
  }

  /** A stored entry stops being served after exactly one minute. */
  lemma ExpiresAfterAMinute(entries: map<string, CacheEntry>, handle: string, now: int)
    requires CacheKey(handle) in entries
    requires now >= entries[CacheKey(handle)].timestamp + CacheDuration
    ensures !IsFresh(entries, handle, now)
  {
  }

  /** The module-level submissions cache. */
  class SubmissionsCache {
    var entries: map<string, CacheEntry>

    constructor ()
      ensures entries == map[]
    {
      entries := map[];
    }

    /** `getUserSubmissions`: answers and updates the cache as `Fetch` says. */
    method GetUserSubmissions(handle: string, now: int, replyAt: int, reply: UserStatusReply)
      returns (r: Result<Option<seq<Submission>>, string>)
      requires now <= replyAt
      modifies this
      ensures (r, entries) == Fetch(old(entries), handle, now, replyAt, reply)
    {
      var cacheKey := CacheKey(handle);
      if cacheKey in entries && now - entries[cacheKey].timestamp < CacheDuration {
        return Success(entries[cacheKey].submissions);
      }
      match reply
      case Body(status, result) =>
        if status == "OK" {
          entries := entries[cacheKey := CacheEntry(result, replyAt)];
          r := Success(result);
        } else {
          r := Failure("Failed to fetch submissions");
        }
      case HttpFailure(_, message, _) =>
        r := Failure(message);
    }
  }

  // ---------------------------------------------------- checkSolvedProblems

  /** A board cell the player has solved: `{row, col, problem}`. */
  datatype Solve = Solve(row: int, col: int, problem: ProblemRef)

  /** Some accepted submission carries no problem: reading its contest id
      throws. */
  predicate AcceptedWithoutProblem(subs: seq<Submission>)
  {
    exists i :: 0 <= i < |subs| && subs[i].verdict == "OK" && subs[i].problem.None?
  }

  /** The `${contestId}${index}` ids of the accepted submissions. */
  function AcceptedIds(subs: seq<Submission>): set<string>
  {
    set i | 0 <= i < |subs| && subs[i].verdict == "OK" && subs[i].problem.Some? :: ProblemId(subs[i].problem.value)
  }

  /** Cell `(i, j)` comes before cell `(i', j')` in row-major order. */
  predicate Before(s: Solve, t: Solve)
  {
    s.row < t.row || (s.row == t.row && s.col < t.col)
  }

  /** The solved cells of row `i` from column `j` on, left to right. */
  function RowHits(row: seq<ProblemRef>, i: int, j: nat, ids: set<string>): seq<Solve>
    requires j <= |row|
    decreases |row| - j
  {
    if j == |row| then []
    else
      var rest := RowHits(row, i, j + 1, ids);
      if ProblemId(row[j]) in ids then [Solve(i, j, row[j])] + rest else rest
  }

  /** Whether cell `(s.row, s.col)` of the board exists and holds `s.problem`. */
  predicate OnBoard(board: Board, s: Solve)
  {
    0 <= s.row < |board| && 0 <= s.col < |board[s.row]| && board[s.row][s.col] == s.problem
  }

  /** The solved cells of the rows from `i` on, in row-major order. */
  function BoardHits(board: Board, ids: set<string>, i: nat): seq<Solve>
    requires i <= |board|
    decreases |board| - i
  {
    if i == |board| then [] else RowHits(board[i], i, 0, ids) + BoardHits(board, ids, i + 1)
  }

  /** The cells are listed in strictly increasing row-major order. */
  predicate RowMajor(r: seq<Solve>)
  {
    forall a, b :: 0 <= a < b < |r| ==> Before(r[a], r[b])
  }

  /** A row reports exactly its cells from column `j` on whose problem id is
      collected. */
  lemma {:induction false} RowHitsCells(row: seq<ProblemRef>, i: int, j: nat, ids: set<string>)
    requires j <= |row|
    ensures forall s :: s in RowHits(row, i, j, ids) <==>
              s.row == i && j <= s.col < |row| && s.problem == row[s.col] && ProblemId(s.problem) in ids
    decreases |row| - j
  {
    if j < |row| {
      RowHitsCells(row, i, j + 1, ids);
    }
  }

  /** A row reports its cells left to right. */
  lemma {:induction false} RowHitsOrdered(row: seq<ProblemRef>, i: int, j: nat, ids: set<string>)
    requires j <= |row|
    ensures forall k :: 0 <= k < |RowHits(row, i, j, ids)| ==>
              RowHits(row, i, j, ids)[k].row == i && j <= RowHits(row, i, j, ids)[k].col
    ensures RowMajor(RowHits(row, i, j, ids))
    decreases |row| - j
  {
    if j < |row| {
      RowHitsOrdered(row, i, j + 1, ids);
      var rest := RowHits(row, i, j + 1, ids);
      if ProblemId(row[j]) in ids {
        var r := [Solve(i, j, row[j])] + rest;
        assert forall k :: 1 <= k < |r| ==> r[k] == rest[k - 1];
      }
    }
  }

  /** Two row-major lists whose cells all lie in earlier rows, resp. later
      rows, concatenate to a row-major list. */
  lemma RowMajorAppend(here: seq<Solve>, rest: seq<Solve>, i: int)
    requires RowMajor(here) && RowMajor(rest)
    requires forall k :: 0 <= k < |here| ==> here[k].row == i
    requires forall k :: 0 <= k < |rest| ==> rest[k].row > i
    ensures RowMajor(here + rest)
  {
    var r := here + rest;
    forall a, b | 0 <= a < b < |r| ensures Before(r[a], r[b]) {
      if b < |here| {
        assert r[a] == here[a] && r[b] == here[b];
      } else if a < |here| {
        assert r[a] == here[a] && r[b] == rest[b - |here|];
      } else {
        assert r[a] == rest[a - |here|] && r[b] == rest[b - |here|];
      }
    }
  }

  /** The board reports exactly its cells in rows from `i` on whose problem
      id is collected. */
  lemma {:induction false} BoardHitsCells(board: Board, ids: set<string>, i: nat)
    requires i <= |board|
    ensures forall s :: s in BoardHits(board, ids, i) <==> i <= s.row && OnBoard(board, s) && ProblemId(s.problem) in ids
    decreases |board| - i
  {
    if i < |board| {
      RowHitsCells(board[i], i, 0, ids);
      BoardHitsCells(board, ids, i + 1);
    }
  }

  /** The board reports its cells in row-major order. */
  lemma {:induction false} BoardHitsOrdered(board: Board, ids: set<string>, i: nat)
    requires i <= |board|
    ensures forall k :: 0 <= k < |BoardHits(board, ids, i)| ==> BoardHits(board, ids, i)[k].row >= i
    ensures RowMajor(BoardHits(board, ids, i))
    decreases |board| - i
  {
    if i < |board| {
      RowHitsOrdered(board[i], i, 0, ids);
      BoardHitsOrdered(board, ids, i + 1);
      var here := RowHits(board[i], i, 0, ids);
      var rest := BoardHits(board, ids, i + 1);
      RowMajorAppend(here, rest, i);
      var r := here + rest;
      assert forall k :: 0 <= k < |r| ==> r[k] == if k < |here| then here[k] else rest[k - |here|];
    }
  }

  /** What `checkSolvedProblems` answers once the submissions are known: a
      non-list result or an accepted submission without a problem throws;
      otherwise the solved cells of the board in row-major order. */
  function SolvedOnBoard(fetched: Result<Option<seq<Submission>>, string>, board: Board): Result<seq<Solve>, string>
  {
    if fetched.Failure? then Failure(fetched.error)
    else if fetched.value.None? then Failure(NotAListError)
    else if AcceptedWithoutProblem(fetched.value.value) then Failure(NoProblemError)
    else Success(BoardHits(board, AcceptedIds(fetched.value.value), 0))
  }

  const NotAListError := "Cannot read properties of undefined (reading 'forEach')"
  const NoProblemError := "Cannot read properties of undefined (reading 'contestId')"

  /** A reported cell exists on the board, holds the reported problem, and
      that problem's id is the id of an accepted submission; every such cell
      is reported, once, in row-major order. */
  lemma SolvedOnBoardCells(subs: seq<Submission>, board: Board)
    requires !AcceptedWithoutProblem(subs)
    ensures var r := SolvedOnBoard(Success(Some(subs)), board);
            && r.Success?
            && (forall s :: s in r.value <==>
                  OnBoard(board, s) && exists i :: 0 <= i < |subs| && subs[i].verdict == "OK"
                                                   && ProblemId(subs[i].problem.value) == ProblemId(s.problem))
            && RowMajor(r.value)
  {
    var r := SolvedOnBoard(Success(Some(subs)), board);
    BoardHitsCells(board, AcceptedIds(subs), 0);
    BoardHitsOrdered(board, AcceptedIds(subs), 0);
    assert r.value == BoardHits(board, AcceptedIds(subs), 0);
    forall s ensures s in r.value <==>
                  OnBoard(board, s) && exists i :: 0 <= i < |subs| && subs[i].verdict == "OK"
                                                   && ProblemId(subs[i].problem.value) == ProblemId(s.problem)
    {
      if OnBoard(board, s) && exists i :: 0 <= i < |subs| && subs[i].verdict == "OK"
                                          && ProblemId(subs[i].problem.value) == ProblemId(s.problem) {
        var i :| 0 <= i < |subs| && subs[i].verdict == "OK" && ProblemId(subs[i].problem.value) == ProblemId(s.problem);
        assert ProblemId(s.problem) in AcceptedIds(subs);
      }
    }
  }

  /** On a 3x3 board every reported cell is one of the nine grid cells. */
  lemma SolvedCellsInGrid(fetched: Result<Option<seq<Submission>>, string>, board: Board)
    requires IsGrid(board)
    ensures SolvedOnBoard(fetched, board).Success? ==>
              forall s :: s in SolvedOnBoard(fetched, board).value ==> 0 <= s.row < 3 && 0 <= s.col < 3
  {
    if SolvedOnBoard(fetched, board).Success? {
      BoardHitsCells(board, AcceptedIds(fetched.value.value), 0);
    }
  }

  /** `checkSolvedProblems(handle, board)`: fetch the submissions through the
      cache, collect the ids of the accepted ones, then walk the board row
      by row and report the cells whose problem id was collected. */
  method CheckSolvedProblems(handle: string, board: Board, cache: SubmissionsCache, now: int, replyAt: int, reply: UserStatusReply)
    returns (r: Result<seq<Solve>, string>)
    requires now <= replyAt
    modifies cache
    ensures var (fetched, entries) := Fetch(old(cache.entries), handle, now, replyAt, reply);
            r == SolvedOnBoard(fetched, board) && cache.entries == entries
  {
    var fetched := cache.GetUserSubmissions(handle, now, replyAt, reply);
    if fetched.Failure? {
      return Failure(fetched.error);
    }
    if fetched.value.None? {
      return Failure(NotAListError);
    }
    var solvedProblems := CollectAcceptedIds(fetched.value.value);
    if solvedProblems.None? {
      return Failure(NoProblemError);
    }
    var newlySolved := ScanBoard(board, solvedProblems.value);
    r := Success(newlySolved);
  }

  /** The first half of `checkSolvedProblems`: the set of ids of accepted
      submissions, or None where an accepted submission has no problem. */
  method CollectAcceptedIds(submissions: seq<Submission>) returns (r: Option<set<string>>)
    ensures r.None? <==> AcceptedWithoutProblem(submissions)
    ensures r.Some? ==> r.value == AcceptedIds(submissions)
  {
    var solvedProblems: set<string> := {};
    for k := 0 to |submissions|
      invariant !AcceptedWithoutProblem(submissions[..k])
      invariant solvedProblems == AcceptedIds(submissions[..k])
    {
      var sub := submissions[k];
      if sub.verdict == "OK" {
        if sub.problem.None? {
          assert submissions[k] == sub;
          return None;
        }
        solvedProblems := solvedProblems + {ProblemId(sub.problem.value)};
      }
      assert submissions[..k + 1][k] == sub;
      assert forall i :: 0 <= i < k ==> submissions[..k + 1][i] == submissions[..k][i];
    }
    assert submissions[..|submissions|] == submissions;
    r := Some(solvedProblems);
  }

  /** The second half of `checkSolvedProblems`: the board walk, row by row. */
  method ScanBoard(board: Board, ids: set<string>) returns (newlySolved: seq<Solve>)
    ensures newlySolved == BoardHits(board, ids, 0)
  {
    newlySolved := [];
    for i := 0 to |board|
      invariant newlySolved + BoardHits(board, ids, i) == BoardHits(board, ids, 0)
    {
      var hits := ScanRow(board[i], i, ids);
      assert BoardHits(board, ids, i) == hits + BoardHits(board, ids, i + 1);
      newlySolved := newlySolved + hits;
    }
  }

  /** The inner walk over one row, left to right. */
  method ScanRow(row: seq<ProblemRef>, i: int, ids: set<string>) returns (hits: seq<Solve>)
    ensures hits == RowHits(row, i, 0, ids)
  {
    hits := [];
    for j := 0 to |row|
      invariant hits + RowHits(row, i, j, ids) == RowHits(row, i, 0, ids)
    {
      var problem := row[j];
      if ProblemId(problem) in ids {
        hits := hits + [Solve(i, j, problem)];
      }
    }
  }
}

=== FILE: countdown.dfy ===
/** `calculateTimeLeft` of frontend/src/components/CountdownTimer.js: the
    time until a room's fixed lifetime runs out, split into hours, minutes
    and seconds. Times are integer milliseconds; the clock reading `now` is
    an argument. */
module Countdown {
  import opened Wrappers
  import opened JsBuiltins

  /** A room lives two and a half hours. */
  const Lifetime: int := 9000000

  const HourMs: int := 3600000
  const MinuteMs: int := 60000
  const SecondMs: int := 1000

  /** What the timer shows: 'Loading...', 'Room expired' or `${h}h ${m}m ${s}s`. */
  datatype TimeLeft = Loading | Expired | Remaining(hours: nat, minutes: nat, seconds: nat)

  /** The milliseconds a (h, m, s) reading stands for. */
  function Millis(hours: nat, minutes: nat, seconds: nat): int
  {
    hours * HourMs + minutes * MinuteMs + seconds * SecondMs
  }

  /** The time left at `now` for a room created at `createdAt`: expired once
      the end time is reached, otherwise the whole hours, the minutes and
      seconds within the hour, with the spare milliseconds dropped. */
  function CalculateTimeLeft(createdAt: int, now: int): (r: TimeLeft)
    ensures r != Loading
    ensures r == Expired <==> createdAt + Lifetime - now <= 0
    ensures r.Remaining? ==>
              && r.minutes < 60 && r.seconds < 60
              && Millis(r.hours, r.minutes, r.seconds) <= createdAt + Lifetime - now
              && createdAt + Lifetime - now < Millis(r.hours, r.minutes, r.seconds) + SecondMs
  {
    var endTime := createdAt + Lifetime;
    var difference := endTime - now;
    if difference <= 0 then Expired
    else
      // the difference is positive, so flooring division and `%` agree
      // with Dafny's
      var hours := difference / HourMs;
      var minutes := (difference % HourMs) / MinuteMs;
      var seconds := (difference % MinuteMs) / SecondMs;
      SplitMillis(difference);
      Remaining(hours, minutes, seconds)
  }

  /** The hour, minute and second split of a positive difference is below
      it by less than a second. */
  lemma SplitMillis(d: int)
    requires d > 0
    ensures var h := d / HourMs;
            var m := (d % HourMs) / MinuteMs;
            var s := (d % MinuteMs) / SecondMs;
            m < 60 && s < 60 && Millis(h, m, s) <= d < Millis(h, m, s) + SecondMs
  {
    var h := d / HourMs;
    var rest := d % HourMs;
    var m := rest / MinuteMs;
    var q := rest % MinuteMs;
    assert d == (h * 60 + m) * MinuteMs + q;
    assert d % MinuteMs == q;
    var s := q / SecondMs;
    assert q == s * SecondMs + q % SecondMs;
  }

  /** `if (!createdAt)`: no creation time shows 'Loading...'. */
  function TimerText(createdAt: Option<int>, now: int): (r: TimeLeft)
    ensures r == Loading <==> createdAt.None?
    ensures createdAt.Some? ==> r == CalculateTimeLeft(createdAt.value, now)
  {
    if createdAt.None? then Loading else CalculateTimeLeft(createdAt.value, now)
  }

  /** The text the component renders. */
  function Render(t: TimeLeft): string
  {
    match t
    case Loading => "Loading..."
    case Expired => "Room expired"
    case Remaining(h, m, s) => NumberText(h) + "h " + NumberText(m) + "m " + NumberText(s) + "s"
  }

  /** The reading is the only one with minutes and seconds below 60 whose
      time lies within a second below the difference. */
  lemma ReadingIsUnique(createdAt: int, now: int, h: nat, m: nat, s: nat)
    requires m < 60 && s < 60 && createdAt + Lifetime - now > 0
    requires Millis(h, m, s) <= createdAt + Lifetime - now < Millis(h, m, s) + SecondMs
    ensures CalculateTimeLeft(createdAt, now) == Remaining(h, m, s)
  {
    var r := CalculateTimeLeft(createdAt, now);
    var d := createdAt + Lifetime - now;
    assert r.Remaining?;
    var t1 := r.hours * 3600 + r.minutes * 60 + r.seconds;
    var t2 := h * 3600 + m * 60 + s;
    assert t1 * 1000 <= d < t1 * 1000 + 1000;
    assert t2 * 1000 <= d < t2 * 1000 + 1000;
    assert t1 == t2;
    assert r.hours == h by {
      assert t1 / 3600 == r.hours;
      assert t2 / 3600 == h;
    }
  }

  /** A room just created shows 2h 30m 0s, and no reading after creation
      shows more than two hours. */
  lemma FreshRoom(createdAt: int, now: int)
    ensures CalculateTimeLeft(createdAt, createdAt) == Remaining(2, 30, 0)
    ensures now >= createdAt && CalculateTimeLeft(createdAt, now).Remaining? ==>
              CalculateTimeLeft(createdAt, now).hours <= 2
  {
    ReadingIsUnique(createdAt, createdAt, 2, 30, 0);
  }

  /** Later readings never show more time left. */
  lemma Monotone(createdAt: int, now1: int, now2: int)
    requires now1 <= now2
    ensures CalculateTimeLeft(createdAt, now1) == Expired ==> CalculateTimeLeft(createdAt, now2) == Expired
    ensures CalculateTimeLeft(createdAt, now2).Remaining? ==>
              var a := CalculateTimeLeft(createdAt, now1);
              var b := CalculateTimeLeft(createdAt, now2);
              a.Remaining? && Millis(b.hours, b.minutes, b.seconds) <= Millis(a.hours, a.minutes, a.seconds)
  {
    var a := CalculateTimeLeft(createdAt, now1);
    var b := CalculateTimeLeft(createdAt, now2);
    if b.Remaining? {
      MillisOrder(a.hours, a.minutes, a.seconds, b.hours, b.minutes, b.seconds);
    }
  }

  /** Readings are whole seconds: one less than a second above another is
      not above it. */
  lemma MillisOrder(h1: nat, m1: nat, s1: nat, h2: nat, m2: nat, s2: nat)
    requires Millis(h2, m2, s2) < Millis(h1, m1, s1) + SecondMs
    ensures Millis(h2, m2, s2) <= Millis(h1, m1, s1)
  {
    var t1 := h1 * 3600 + m1 * 60 + s1;
    var t2 := h2 * 3600 + m2 * 60 + s2;
    assert Millis(h1, m1, s1) == t1 * 1000;
    assert Millis(h2, m2, s2) == t2 * 1000;
  }
}

=== FILE: game_logic.dfy ===
/** Board provisioning, backend/services/gameLogic.js: choosing the
    candidate problems for the tag mode, merging per-tag lists by problem
    key, the rating filter, dropping problems some player has solved,
    picking nine and laying them out as a 3x3 board. What the catalogue
    requests answer, what `getSolvedProblems` answers for each player (the
    function `Codeforces.GetSolvedProblems` of that player's `user.status`
    reply), and the shuffle, are arguments. */
module GameLogic {
  import opened Wrappers
  import opened JsBuiltins
  import opened Catalog

  // --------------------------------------------------- getProblemsForTags

  /** The position of the entry with key `key`, if any. */
  function IndexOfKey(entries: seq<ProblemRef>, key: string): (r: Option<nat>)
    ensures r.Some? ==> r.value < |entries| && ProblemKey(entries[r.value]) == key
    ensures r.None? ==> forall i :: 0 <= i < |entries| ==> ProblemKey(entries[i]) != key
  {
    if entries == [] then None
    else if ProblemKey(entries[|entries| - 1]) == key then Some(|entries| - 1)
    else IndexOfKey(entries[..|entries| - 1], key)
  }

  /** The values of the `Map` the OR mode fills, in its iteration order:
      each well-formed problem is stored under its key; a key seen before
      keeps its position and takes the newer problem. */
  function Merged(problems: seq<ProblemRef>): seq<ProblemRef>
  {
    if problems == [] then []
    else
      var m := Merged(problems[..|problems| - 1]);
      var p := problems[|problems| - 1];
      if !HasKeyFields(p) then m
      else
        match IndexOfKey(m, ProblemKey(p))
        case Some(i) => m[i := p]
        case None => m + [p]
  }

  /** No two entries share a problem key. */
  predicate UniqueKeys(entries: seq<ProblemRef>)
  {
    forall a, b :: 0 <= a < b < |entries| ==> ProblemKey(entries[a]) != ProblemKey(entries[b])
  }

  /** The merged list has one entry per key. */
  lemma {:induction false} MergedUniqueKeys(problems: seq<ProblemRef>)
    ensures UniqueKeys(Merged(problems))
  {
    if problems != [] {
      MergedUniqueKeys(problems[..|problems| - 1]);
    }
  }

  /** Every merged entry is a well-formed input problem. */
  lemma {:induction false} MergedFromInput(problems: seq<ProblemRef>)
    ensures forall q :: q in Merged(problems) ==> q in problems && HasKeyFields(q)
  {
    if problems != [] {
      var init := problems[..|problems| - 1];
      var p := problems[|problems| - 1];
      MergedFromInput(init);
      assert forall x :: x in init ==> x in problems;
      var m := Merged(init);
      if HasKeyFields(p) && IndexOfKey(m, ProblemKey(p)).Some? {
        var i := IndexOfKey(m, ProblemKey(p)).value;
        forall q | q in m[i := p] ensures q in problems && HasKeyFields(q) {
          var a :| 0 <= a < |m| && m[i := p][a] == q;
          if a != i {
            assert m[a] in m;
          }
        }
      }
    }
  }

  /** Every well-formed input problem's key is present. */
  lemma {:induction false} MergedCoversKeys(problems: seq<ProblemRef>)
    ensures forall p :: p in problems && HasKeyFields(p) ==>
              exists q :: q in Merged(problems) && ProblemKey(q) == ProblemKey(p)
  {
    if problems != [] {
      var init := problems[..|problems| - 1];
      var p := problems[|problems| - 1];
      MergedCoversKeys(init);
      assert forall x :: x in problems ==> x in init || x == p;
      var m := Merged(init);
      var r := Merged(problems);
      if HasKeyFields(p) && IndexOfKey(m, ProblemKey(p)).Some? {
        var i := IndexOfKey(m, ProblemKey(p)).value;
        forall p' | p' in problems && HasKeyFields(p')
          ensures exists q :: q in r && ProblemKey(q) == ProblemKey(p')
        {
          if p' != p {
            var q :| q in m && ProblemKey(q) == ProblemKey(p');
            var a :| 0 <= a < |m| && m[a] == q;
            assert r[a] in r;
          } else {
            assert r[i] in r;
          }
        }
      }
    }
  }

  /** Input problem `q` occurs at position `j` or later. */
  predicate OccursFrom(problems: seq<ProblemRef>, q: ProblemRef, j: int)
  {
    exists i :: 0 <= i < |problems| && j <= i && problems[i] == q
  }

  /** The entry stored under a key is the last input problem with that key:
      it occurs in the input at or after every well-formed position holding
      that key. */
  lemma {:induction false} MergedKeepsLast(problems: seq<ProblemRef>)
    ensures forall a, j :: 0 <= a < |Merged(problems)| && 0 <= j < |problems| && HasKeyFields(problems[j])
                           && ProblemKey(problems[j]) == ProblemKey(Merged(problems)[a]) ==>
              OccursFrom(problems, Merged(problems)[a], j)
  {
    if problems != [] {
      var init := problems[..|problems| - 1];
      MergedKeepsLast(init);
      MergedUniqueKeys(init);
      var r := Merged(problems);
      forall a, j | 0 <= a < |r| && 0 <= j < |problems| && HasKeyFields(problems[j]) && ProblemKey(problems[j]) == ProblemKey(r[a])
        ensures OccursFrom(problems, r[a], j)
      {
        MergedKeepsLastStep(problems, a, j);
      }
    }
  }

  /** One case of the induction step: the entry at `a` after adding the
      last problem. */
  lemma MergedKeepsLastStep(problems: seq<ProblemRef>, a: int, j: int)
    requires problems != []
    requires 0 <= a < |Merged(problems)| && 0 <= j < |problems| && HasKeyFields(problems[j])
    requires ProblemKey(problems[j]) == ProblemKey(Merged(problems)[a])
    requires UniqueKeys(Merged(problems[..|problems| - 1]))
    requires var init := problems[..|problems| - 1];
             forall a', j' :: 0 <= a' < |Merged(init)| && 0 <= j' < |init| && HasKeyFields(init[j'])
                              && ProblemKey(init[j']) == ProblemKey(Merged(init)[a']) ==>
               OccursFrom(init, Merged(init)[a'], j')
    ensures OccursFrom(problems, Merged(problems)[a], j)
  {
    var n := |problems| - 1;
    var init := problems[..n];
    var p := problems[n];
    var m := Merged(init);
    var r := Merged(problems);
    if r[a] == p {
      assert problems[n] == r[a];
    } else {
      // the entry at `a` is the one the shorter input stored there, and
      // its key differs from p's
      assert a < |m| && r[a] == m[a] && (HasKeyFields(p) ==> ProblemKey(m[a]) != ProblemKey(p)) by {
        if HasKeyFields(p) {
          match IndexOfKey(m, ProblemKey(p))
          case Some(i) =>
            assert r == m[i := p];
            assert a != i;
          case None =>
            assert r == m + [p];
        }
      }
      assert j < n;
      assert init[j] == problems[j];
      assert OccursFrom(init, m[a], j);
      var i :| 0 <= i < |init| && j <= i && init[i] == m[a];
      assert problems[i] == r[a];
    }
  }

  /** `problemsByTag.flat()`. */
  function Flatten(lists: seq<seq<ProblemRef>>): (r: seq<ProblemRef>)
    ensures forall p :: p in r <==> exists l :: l in lists && p in l
  {
    if lists == [] then []
    else
      assert forall l :: l in lists <==> l in lists[..|lists| - 1] || l == lists[|lists| - 1];
      Flatten(lists[..|lists| - 1]) + lists[|lists| - 1]
  }

  /** `Promise.all(tags.map(getProblemsByTag))`: every tag's list, or the
      error of the first tag whose request fails. */
  function FetchEach(tags: seq<string>, byTag: string -> Result<seq<ProblemRef>, string>)
    : (r: Result<seq<seq<ProblemRef>>, string>)
    ensures r.Success? <==> forall i :: 0 <= i < |tags| ==> byTag(tags[i]).Success?
    ensures r.Success? ==> |r.value| == |tags| && forall i :: 0 <= i < |tags| ==> r.value[i] == byTag(tags[i]).value
  {
    if tags == [] then Success([])
    else
      var init := FetchEach(tags[..|tags| - 1], byTag);
      var last := byTag(tags[|tags| - 1]);
      if init.Failure? then init
      else if last.Failure? then Failure(last.error)
      else Success(init.value + [last.value])
  }

  const OrModeError := "Failed to fetch problems. Please try again with different tags."

  /** `getProblemsForTags(tags, tagMode)`: the whole catalogue when there is
      no tag or the mode is 'MIXED'; one query for all tags joined with ';'
      in 'AND' mode; in any other mode ('OR') one query per tag, merged by
      problem key. */
  function ProblemsForTags(tags: seq<string>, tagMode: string,
                           all: Result<seq<ProblemRef>, string>,
                           byTag: string -> Result<seq<ProblemRef>, string>): Result<seq<ProblemRef>, string>
  {
    if tags == [] || tagMode == "MIXED" then all
    else if tagMode == "AND" then byTag(Join(tags, ";"))
    else
      match FetchEach(tags, byTag)
      case Failure(_) => Failure(OrModeError)
      case Success(lists) => Success(Merged(Flatten(lists)))
  }

  /** The mode decides the request: no tag or 'MIXED' takes the whole
      catalogue (its error included), 'AND' makes one request for the
      tags joined with ';', and the OR mode fails exactly when some tag's
      request fails, with its own message. */
  lemma ModeSelection(tags: seq<string>, tagMode: string,
                      all: Result<seq<ProblemRef>, string>,
                      byTag: string -> Result<seq<ProblemRef>, string>)
    ensures tags == [] || tagMode == "MIXED" ==> ProblemsForTags(tags, tagMode, all, byTag) == all
    ensures tags != [] && tagMode == "AND" ==> ProblemsForTags(tags, tagMode, all, byTag) == byTag(Join(tags, ";"))
    ensures tags != [] && tagMode != "MIXED" && tagMode != "AND" && ProblemsForTags(tags, tagMode, all, byTag).Failure? ==>
              ProblemsForTags(tags, tagMode, all, byTag).error == OrModeError
  {
  }

  /** In OR mode the merged list has unique keys and holds well-formed
      problems of the per-tag lists only; every well-formed problem of some
      tag's list is represented by its key. */
  lemma OrModeMerge(tags: seq<string>, tagMode: string,
                    all: Result<seq<ProblemRef>, string>,
                    byTag: string -> Result<seq<ProblemRef>, string>)
    requires tags != [] && tagMode != "MIXED" && tagMode != "AND"
    ensures var r := ProblemsForTags(tags, tagMode, all, byTag);
            && (r.Failure? <==> exists i :: 0 <= i < |tags| && byTag(tags[i]).Failure?)
            && (r.Success? ==>
                  && UniqueKeys(r.value)
                  && (forall q :: q in r.value ==> HasKeyFields(q) && exists i :: 0 <= i < |tags| && q in byTag(tags[i]).value)
                  && (forall i, p :: 0 <= i < |tags| && p in byTag(tags[i]).value && HasKeyFields(p) ==>
                        exists q :: q in r.value && ProblemKey(q) == ProblemKey(p)))
  {
    var fetched := FetchEach(tags, byTag);
    if fetched.Success? {
      var flat := Flatten(fetched.value);
      MergedUniqueKeys(flat);
      MergedFromInput(flat);
      MergedCoversKeys(flat);
      forall q | q in Merged(flat) ensures exists i :: 0 <= i < |tags| && q in byTag(tags[i]).value {
        var l :| l in fetched.value && q in l;
        var i :| 0 <= i < |fetched.value| && fetched.value[i] == l;
      }
      forall i, p | 0 <= i < |tags| && p in byTag(tags[i]).value && HasKeyFields(p)
        ensures exists q :: q in Merged(flat) && ProblemKey(q) == ProblemKey(p)
      {
        assert fetched.value[i] in fetched.value;
      }
    }
  }

  /** `getProblemsForTags`, with the OR-mode `forEach` over the flattened
      lists filling the key-indexed map. */
  method GetProblemsForTags(tags: seq<string>, tagMode: string,
                            all: Result<seq<ProblemRef>, string>,
                            byTag: string -> Result<seq<ProblemRef>, string>)
    returns (r: Result<seq<ProblemRef>, string>)
    ensures r == ProblemsForTags(tags, tagMode, all, byTag)
  {
    if tags == [] || tagMode == "MIXED" {
      return all;
    }
    if tagMode == "AND" {
      return byTag(Join(tags, ";"));
    }
    var problemsByTag := FetchEach(tags, byTag);
    if problemsByTag.Failure? {
      return Failure(OrModeError);
    }
    var flat := Flatten(problemsByTag.value);
    var allProblems: seq<ProblemRef> := [];
    for k := 0 to |flat|
      invariant allProblems == Merged(flat[..k])
    {
      var problem := flat[k];
      assert flat[..k + 1][..k] == flat[..k];
      if HasKeyFields(problem) {
        var key := ProblemKey(problem);
        match IndexOfKey(allProblems, key)
        case Some(i) =>
          allProblems := allProblems[i := problem];
        case None =>
          allProblems := allProblems + [problem];
      }
    }
    assert flat[..|flat|] == flat;
    r := Success(allProblems);
  }

  // ------------------------------------------------------------ filters

  /** `p.rating && p.rating >= min && p.rating <= max`: a rating of 0 or no
      rating fails. */
  predicate RatedWithin(p: ProblemRef, min: int, max: int)
  {
    p.rating.Some? && p.rating.value != 0 && min <= p.rating.value <= max
  }

  const RatingRangeError := "Rating range must be specified with valid numbers"

  /** `filterByRating(problems, min, max)`: a non-list gives []; a bound that
      is not a number throws; otherwise exactly the problems rated within
      the inclusive range, in order. */
  function FilterByRating(problems: Option<seq<ProblemRef>>, minDiff: Bound, maxDiff: Bound)
    : (r: Result<seq<ProblemRef>, string>)
    ensures problems.None? ==> r == Success([])
    ensures problems.Some? && (!minDiff.Num? || !maxDiff.Num?) ==> r == Failure(RatingRangeError)
    ensures problems.Some? && minDiff.Num? && maxDiff.Num? ==>
              && r.Success?
              && (forall p :: p in r.value <==> p in problems.value && RatedWithin(p, minDiff.n, maxDiff.n))
  {
    if problems.None? then Success([])
    else if !minDiff.Num? || !maxDiff.Num? then Failure(RatingRangeError)
    else Success(Filter(problems.value, p => RatedWithin(p, minDiff.n, maxDiff.n)))
  }

  /** Kept by `getUnsolvedProblems`: well-formed and not solved by anyone. */
  predicate Unsolved(p: ProblemRef, allSolved: set<string>)
  {
    HasKeyFields(p) && ProblemKey(p) !in allSolved
  }

  /** `getUnsolvedProblems(problems, allSolved)`: a non-list gives [];
      otherwise exactly the well-formed problems whose key nobody solved. */
  function GetUnsolvedProblems(problems: Option<seq<ProblemRef>>, allSolved: set<string>): (r: seq<ProblemRef>)
    ensures problems.None? ==> r == []
    ensures problems.Some? ==> forall p :: p in r <==> p in problems.value && Unsolved(p, allSolved)
  {
    if problems.None? then [] else Filter(problems.value, p => Unsolved(p, allSolved))
  }

  /** `selectRandomProblems(problems, count)`: the first `count` entries of
      a shuffled copy. `shuffled` is the order the random comparator
      produced, a permutation of the input. The answer has min(count, n)
      entries, each taken from the input no more often than it occurs. */
  function SelectRandomProblems(problems: Option<seq<ProblemRef>>, shuffled: seq<ProblemRef>, count: nat)
    : (r: seq<ProblemRef>)
    requires problems.Some? ==> multiset(shuffled) == multiset(problems.value)
    ensures problems.None? ==> r == []
    ensures problems.Some? ==> |r| == if count < |problems.value| then count else |problems.value|
    ensures problems.Some? ==> multiset(r) <= multiset(problems.value)
  {
    if problems.None? then []
    else
      var r := if count < |shuffled| then shuffled[..count] else shuffled;
      assert shuffled == r + shuffled[|r|..];
      assert |shuffled| == |multiset(shuffled)| == |problems.value|;
      r
  }

  // ------------------------------------------------------ createGameBoard

  /** The union of every handle's solved keys, or the first failure. */
  function SolvedByAll(handles: seq<string>, solvedOf: string -> Result<seq<string>, string>): Result<set<string>, string>
  {
    if handles == [] then Success({})
    else
      var init := SolvedByAll(handles[..|handles| - 1], solvedOf);
      var h := handles[|handles| - 1];
      var last := solvedOf(h);
      if init.Failure? then init
      else if last.Failure? then Failure(last.error)
      else Success(init.value + set k | k in last.value)
  }

  /** The collection succeeds exactly when every handle's request does, and
      then holds exactly the keys some player has solved. */
  lemma {:induction false} SolvedByAllKeys(handles: seq<string>, solvedOf: string -> Result<seq<string>, string>)
    ensures SolvedByAll(handles, solvedOf).Success? <==>
              forall i :: 0 <= i < |handles| ==> solvedOf(handles[i]).Success?
    ensures SolvedByAll(handles, solvedOf).Success? ==>
              forall k :: k in SolvedByAll(handles, solvedOf).value <==>
                exists i :: 0 <= i < |handles| && k in solvedOf(handles[i]).value
  {
    if handles != [] {
      var init := handles[..|handles| - 1];
      SolvedByAllKeys(init, solvedOf);
      assert forall i :: 0 <= i < |init| ==> init[i] == handles[i];
    }
  }

  const SettingsRequiredError := "Game settings are required"
  const DifficultyRequiredError := "Both minimum and maximum difficulty must be specified"

  /** The error text for too few unsolved problems. */
  function NotEnoughError(found: nat): string
  {
    "Not enough unsolved problems matching the criteria. Found " + DecimalText(found)
    + " problems. Try adjusting the rating range or selecting different tags."
  }

  /** The unsolved candidates `createGameBoard` chooses from, or the first
      error on the way there: fetch for the tags, filter by rating, collect
      every player's solved keys, drop the solved problems. */
  function Candidates(teamA: seq<string>, teamB: seq<string>, s: Settings,
                      problems: Result<seq<ProblemRef>, string>,
                      solvedOf: string -> Result<seq<string>, string>): Result<seq<ProblemRef>, string>
  {
    if problems.Failure? then Failure(problems.error)
    else
      var rated := FilterByRating(Some(problems.value), s.minDifficulty, s.maxDifficulty);
      if rated.Failure? then Failure(rated.error)
      else
        var solved := SolvedByAll(teamA + teamB, solvedOf);
        if solved.Failure? then Failure(solved.error)
        else Success(GetUnsolvedProblems(Some(rated.value), solved.value))
  }

  /** Every candidate is well-formed, rated within the settings' range and
      one of the fetched problems. */
  lemma CandidatesEligible(teamA: seq<string>, teamB: seq<string>, s: Settings,
                           problems: Result<seq<ProblemRef>, string>,
                           solvedOf: string -> Result<seq<string>, string>)
    ensures var c := Candidates(teamA, teamB, s, problems, solvedOf);
            c.Success? ==>
              && problems.Success? && s.minDifficulty.Num? && s.maxDifficulty.Num?
              && forall p :: p in c.value ==>
                   && HasKeyFields(p) && p in problems.value
                   && RatedWithin(p, s.minDifficulty.n, s.maxDifficulty.n)
  {
  }

  /** No candidate has been solved by any player of either team, and
      building the candidates needed every player's solved list. */
  lemma CandidatesUnsolved(teamA: seq<string>, teamB: seq<string>, s: Settings,
                           problems: Result<seq<ProblemRef>, string>,
                           solvedOf: string -> Result<seq<string>, string>)
    ensures var c := Candidates(teamA, teamB, s, problems, solvedOf);
            c.Success? ==> forall p, h :: p in c.value && h in teamA + teamB ==>
              solvedOf(h).Success? && ProblemKey(p) !in solvedOf(h).value
  {
    var c := Candidates(teamA, teamB, s, problems, solvedOf);
    if c.Success? {
      var handles := teamA + teamB;
      var solved := SolvedByAll(handles, solvedOf);
      forall p, h | p in c.value && h in handles
        ensures solvedOf(h).Success? && ProblemKey(p) !in solvedOf(h).value
      {
        assert Unsolved(p, solved.value);
        SolvedByAllCovers(handles, solvedOf, h);
      }
    }
  }

  /** A successful collection holds every key of every listed handle. */
  lemma {:induction false} SolvedByAllCovers(handles: seq<string>, solvedOf: string -> Result<seq<string>, string>, h: string)
    requires SolvedByAll(handles, solvedOf).Success?
    requires h in handles
    ensures solvedOf(h).Success?
    ensures forall k :: k in solvedOf(h).value ==> k in SolvedByAll(handles, solvedOf).value
  {
    var init := handles[..|handles| - 1];
    if h != handles[|handles| - 1] {
      assert h in init by {
        var i :| 0 <= i < |handles| && handles[i] == h;
        assert init[i] == h;
      }
      SolvedByAllCovers(init, solvedOf, h);
    }
  }

  /** `[selected.slice(0, 3), selected.slice(3, 6), selected.slice(6, 9)]`. */
  function SplitBoard(selected: seq<ProblemRef>): (b: Board)
    requires |selected| == 9
    ensures IsGrid(b) && forall i, j :: 0 <= i < 3 && 0 <= j < 3 ==> b[i][j] == selected[3 * i + j]
  {
    [selected[0..3], selected[3..6], selected[6..9]]
  }

  /** The last steps of `createGameBoard` once the candidates are known:
      an error is passed on, fewer than nine is an error naming their
      number, otherwise the first nine of the shuffled candidates laid out
      row by row. */
  function Layout(c: Result<seq<ProblemRef>, string>, shuffle: seq<ProblemRef> -> seq<ProblemRef>): Result<Board, string>
    requires forall xs :: multiset(shuffle(xs)) == multiset(xs)
  {
    if c.Failure? then Failure(c.error)
    else if |c.value| < 9 then Failure(NotEnoughError(|c.value|))
    else Success(SplitBoard(SelectRandomProblems(Some(c.value), shuffle(c.value), 9)))
  }

  /** Too few candidates is an error naming their number; otherwise the
      board is 3x3, holds nine of the candidates (none more often than it
      is a candidate) and its cell (i, j) is the shuffled candidate 3i+j. */
  lemma LayoutCases(c: Result<seq<ProblemRef>, string>, shuffle: seq<ProblemRef> -> seq<ProblemRef>)
    requires forall xs :: multiset(shuffle(xs)) == multiset(xs)
    ensures c.Failure? ==> Layout(c, shuffle) == Failure(c.error)
    ensures c.Success? && |c.value| < 9 ==> Layout(c, shuffle) == Failure(NotEnoughError(|c.value|))
    ensures c.Success? && |c.value| >= 9 ==>
              var b := Layout(c, shuffle);
              && b.Success? && IsGrid(b.value)
              && multiset(b.value[0] + b.value[1] + b.value[2]) <= multiset(c.value)
              && |shuffle(c.value)| == |c.value|
              && forall i, j :: 0 <= i < 3 && 0 <= j < 3 ==> b.value[i][j] == shuffle(c.value)[3 * i + j]
  {
    if c.Success? && |c.value| >= 9 {
      var shuffled := shuffle(c.value);
      assert |shuffled| == |multiset(shuffled)| == |c.value|;
      var selected := SelectRandomProblems(Some(c.value), shuffled, 9);
      var board := SplitBoard(selected);
      assert selected == board[0] + board[1] + board[2];
      assert selected == shuffled[..9];
    }
  }

  /** `createGameBoard(teamA, teamB, settings)`: no settings or a missing
      difficulty bound is an error; otherwise the candidates are gathered
      and laid out as `Layout` says. `shuffle` stands for the random
      reordering. */
  method CreateGameBoard(teamA: seq<string>, teamB: seq<string>, settings: Option<Settings>,
                         all: Result<seq<ProblemRef>, string>,
                         byTag: string -> Result<seq<ProblemRef>, string>,
                         solvedOf: string -> Result<seq<string>, string>,
                         shuffle: seq<ProblemRef> -> seq<ProblemRef>)
    returns (r: Result<Board, string>)
    requires forall xs :: multiset(shuffle(xs)) == multiset(xs)
    ensures settings.None? ==> r == Failure(SettingsRequiredError)
    ensures settings.Some? && (settings.value.minDifficulty.Undefined? || settings.value.maxDifficulty.Undefined?) ==>
              r == Failure(DifficultyRequiredError)
    ensures settings.Some? && !settings.value.minDifficulty.Undefined? && !settings.value.maxDifficulty.Undefined? ==>
              r == Layout(Candidates(teamA, teamB, settings.value,
                                     ProblemsForTags(settings.value.tags, settings.value.tagMode, all, byTag), solvedOf),
                          shuffle)
  {
    if settings.None? {
      return Failure(SettingsRequiredError);
    }
    var s := settings.value;
    if s.minDifficulty.Undefined? || s.maxDifficulty.Undefined? {
      return Failure(DifficultyRequiredError);
    }
    var candidates := GatherCandidates(teamA, teamB, s, all, byTag, solvedOf);
    if candidates.Failure? {
      return Failure(candidates.error);
    }
    var unsolved := candidates.value;
    if |unsolved| < 9 {
      return Failure(NotEnoughError(|unsolved|));
    }
    var selected := SelectRandomProblems(Some(unsolved), shuffle(unsolved), 9);
    r := Success(SplitBoard(selected));
  }

  /** Steps 1 to 4 of `createGameBoard`: fetch for the tags, filter by
      rating, gather the players' solved keys and keep the unsolved
      problems, passing on the first error. */
  method GatherCandidates(teamA: seq<string>, teamB: seq<string>, s: Settings,
                          all: Result<seq<ProblemRef>, string>,
                          byTag: string -> Result<seq<ProblemRef>, string>,
                          solvedOf: string -> Result<seq<string>, string>)
    returns (r: Result<seq<ProblemRef>, string>)
    ensures r == Candidates(teamA, teamB, s, ProblemsForTags(s.tags, s.tagMode, all, byTag), solvedOf)
  {
    var problems := GetProblemsForTags(s.tags, s.tagMode, all, byTag);
    if problems.Failure? {
      return Failure(problems.error);
    }
    var ratingFiltered := FilterByRating(Some(problems.value), s.minDifficulty, s.maxDifficulty);
    if ratingFiltered.Failure? {
      return Failure(ratingFiltered.error);
    }
    var allSolved := CollectSolved(teamA + teamB, solvedOf);
    if allSolved.Failure? {
      return Failure(allSolved.error);
    }
    r := Success(GetUnsolvedProblems(Some(ratingFiltered.value), allSolved.value));
  }

  /** Step 3 of `createGameBoard`: every player's solved keys gathered into
      one set, stopping at the first failing request. */
  method CollectSolved(allHandles: seq<string>, solvedOf: string -> Result<seq<string>, string>)
    returns (r: Result<set<string>, string>)
    ensures r == SolvedByAll(allHandles, solvedOf)
  {
    var allSolved: set<string> := {};
    for k := 0 to |allHandles|
      invariant SolvedByAll(allHandles[..k], solvedOf) == Success(allSolved)
    {
      var handle := allHandles[k];
      assert allHandles[..k + 1][..k] == allHandles[..k];
      var solved := solvedOf(handle);
      if solved.Failure? {
        SolvedByAllPrefix(allHandles, solvedOf, k + 1);
        return Failure(solved.error);
      }
      for m := 0 to |solved.value|
        invariant allSolved == SolvedByAll(allHandles[..k], solvedOf).value + set x | x in solved.value[..m]
      {
        assert solved.value[..m + 1] == solved.value[..m] + [solved.value[m]];
        allSolved := allSolved + {solved.value[m]};
      }
      assert solved.value[..|solved.value|] == solved.value;
    }
    assert allHandles[..|allHandles|] == allHandles;
    r := Success(allSolved);
  }

  /** A failure for some handles is the failure for every longer list. */
  lemma {:induction false} SolvedByAllPrefix(handles: seq<string>, solvedOf: string -> Result<seq<string>, string>, n: nat)
    requires n <= |handles|
    requires SolvedByAll(handles[..n], solvedOf).Failure?
    ensures SolvedByAll(handles, solvedOf) == SolvedByAll(handles[..n], solvedOf)
    decreases |handles| - n
  {
    if n < |handles| {
      assert handles[..n + 1][..n] == handles[..n];
      SolvedByAllPrefix(handles, solvedOf, n + 1);
    } else {
      assert handles[..n] == handles;
    }
  }
}

=== FILE: game_settings.dfy ===
/** The settings modal of frontend/src/components/GameSettingsModal.js: the
    rating choices, the tag toggle, the rating selector's parse and the
    checks made before the settings are handed on. The component's state
    is the value `Modal`; each handler is a function from the old state. */
module GameSettings {
  import opened Wrappers
  import opened JsBuiltins
  import opened Catalog

  /** `RATING_STEPS`: 28 ratings from 800 in steps of 100. */
  function RatingSteps(): seq<int>
  {
    seq(28, i => 800 + i * 100)
  }

  /** The selector offers exactly the multiples of 100 from 800 to 3500,
      in increasing order. */
  lemma RatingStepsRange()
    ensures |RatingSteps()| == 28 && RatingSteps()[0] == 800 && RatingSteps()[27] == 3500
    ensures forall i :: 0 < i < 28 ==> RatingSteps()[i] == RatingSteps()[i - 1] + 100
    ensures forall v :: v in RatingSteps() <==> 800 <= v <= 3500 && v % 100 == 0
  {
    var r := RatingSteps();
    forall v | 800 <= v <= 3500 && v % 100 == 0 ensures v in r {
      var i := (v - 800) / 100;
      assert r[i] == v;
    }
  }

  /** The modal's state: the selected tags, both ratings and the mode. */
  datatype Modal = Modal(selectedTags: seq<string>, minRating: int, maxRating: int, tagMode: string)

  /** The state the modal opens with. */
  function Initial(): Modal
  {
    Modal([], 800, 1800, "MIXED")
  }

  /** `handleTagToggle(tag)`: a selected tag is filtered out, any other is
      appended. Only that tag's membership changes. */
  function ToggleTag(tags: seq<string>, tag: string): (r: seq<string>)
    ensures tag in r <==> tag !in tags
    ensures forall t :: t != tag ==> (t in r <==> t in tags)
    ensures tag !in tags ==> r[..|r| - 1] == tags
  {
    if tag in tags then Without(tags, tag) else tags + [tag]
  }

  /** Toggling a tag twice restores the selection: exactly when it was not
      selected, and up to the tag moving to the end when it was. */
  lemma {:induction false} ToggleTwice(tags: seq<string>, tag: string)
    ensures tag !in tags ==> ToggleTag(ToggleTag(tags, tag), tag) == tags
    ensures tag in tags ==> ToggleTag(ToggleTag(tags, tag), tag) == Without(tags, tag) + [tag]
  {
    if tag !in tags {
      WithoutAppend(tags, [tag], tag);
      assert Without([tag], tag) == [];
    }
  }

  /** Toggling keeps a selection free of repeats. */
  lemma ToggleKeepsDistinct(tags: seq<string>, tag: string)
    requires Distinct(tags)
    ensures Distinct(ToggleTag(tags, tag))
  {
    var r := ToggleTag(tags, tag);
    if tag !in tags {
      forall t ensures multiset(r)[t] <= 1 {
        assert multiset(r) == multiset(tags) + multiset{tag};
      }
    } else {
      forall t ensures multiset(r)[t] <= 1 {
        if t != tag {
          assert multiset(r)[t] == multiset(tags)[t];
        }
      }
    }
  }

  const NoTagsAlert := "Please select at least one tag or choose Mixed mode"
  const RangeAlert := "Maximum rating must be greater than minimum rating"
  const NotNumberAlert := "Invalid rating values"

  /** `handleSave`: a tag mode other than MIXED with no tag, or a minimum
      not below the maximum, is refused with its alert; otherwise the
      settings carry the selection and mode and both ratings read back
      through `parseInt`, refused when either is not a number. */
  function HandleSave(m: Modal): Result<Settings, string>
  {
    if m.tagMode != "MIXED" && |m.selectedTags| == 0 then Failure(NoTagsAlert)
    else if m.minRating >= m.maxRating then Failure(RangeAlert)
    else
      var lo := ParseInt(NumberText(m.minRating));
      var hi := ParseInt(NumberText(m.maxRating));
      if lo.None? || hi.None? then Failure(NotNumberAlert)
      else Success(Settings(m.selectedTags, m.tagMode, Num(lo.value), Num(hi.value)))
  }

  /** The save goes through exactly when a tag is chosen or the mode is
      MIXED, and the minimum is below the maximum; the saved settings then
      hold the modal's tags, mode and ratings unchanged, with min < max.
      The not-a-number alert cannot be reached from integer ratings. */
  lemma HandleSaveCases(m: Modal)
    ensures m.tagMode != "MIXED" && m.selectedTags == [] ==> HandleSave(m) == Failure(NoTagsAlert)
    ensures (m.tagMode == "MIXED" || m.selectedTags != []) && m.minRating >= m.maxRating ==>
              HandleSave(m) == Failure(RangeAlert)
    ensures HandleSave(m).Success? <==> (m.tagMode == "MIXED" || m.selectedTags != []) && m.minRating < m.maxRating
    ensures HandleSave(m).Success? ==>
              && HandleSave(m).value == Settings(m.selectedTags, m.tagMode, Num(m.minRating), Num(m.maxRating))
              && HandleSave(m).value.minDifficulty.n < HandleSave(m).value.maxDifficulty.n
    ensures HandleSave(m) != Failure(NotNumberAlert)
  {
    ParseIntOfNumberText(m.minRating);
    ParseIntOfNumberText(m.maxRating);
  }

  /** The modal as it opens saves as MIXED over 800..1800. */
  lemma InitialSaves()
    ensures HandleSave(Initial()) == Success(Settings([], "MIXED", Num(800), Num(1800)))
  {
    HandleSaveCases(Initial());
  }

  /** `handleRatingChange(setter)(e)`: the parsed value of the selected
      option, or the rating unchanged when it does not parse. */
  function HandleRatingChange(rating: int, input: string): (r: int)
    ensures ParseInt(input).None? ==> r == rating
    ensures ParseInt(input).Some? ==> r == ParseInt(input).value
  {
    match ParseInt(input)
    case Some(v) => v
    case None => rating
  }

  /** Choosing an option of the selector sets the rating to that option. */
  lemma ChooseRating(rating: int, i: nat)
    requires i < |RatingSteps()|
    ensures HandleRatingChange(rating, NumberText(RatingSteps()[i])) == RatingSteps()[i]
  {
    ParseIntOfNumberText(RatingSteps()[i]);
  }

  /** Text without a single digit does not parse, so the rating stays. */
  lemma NonNumericKeepsRating(rating: int, input: string)
    requires forall i :: 0 <= i < |input| ==> !IsDigit(input[i])
    ensures HandleRatingChange(rating, input) == rating
  {
    var t := TrimStart(input);
    var body := if |t| > 0 && (t[0] == '+' || t[0] == '-') then t[1..] else t;
    if body != [] {
      assert body[0] in input;
    }
  }
}

=== FILE: js_builtins.dfy ===
/** The few JavaScript built-ins the game logic leans on, stated over
    Dafny strings and sequences: decimal rendering of a number inside a
    template string, `parseInt(s, 10)`, `String.prototype.trim`,
    `Array.prototype.join`, `filter`, `slice(-n)` and de-duplication
    through `[...new Set(xs)]`. */
module JsBuiltins {
  import opened Wrappers

  /** JavaScript truthiness of a string that may be null or undefined:
      present and not ''. */
  predicate Truthy(s: Option<string>)
  {
    s.Some? && s.value != ""
  }

  // ---------------------------------------------------------------- digits

  predicate IsDigit(c: char) { '0' <= c <= '9' }

  predicate AllDigits(s: string) { forall i :: 0 <= i < |s| ==> IsDigit(s[i]) }

  function DigitChar(d: nat): (c: char)
    requires d < 10
    ensures IsDigit(c)
  {
    (48 + d) as char
  }

  function DigitValue(c: char): nat
    requires IsDigit(c)
  {
    c as int - 48
  }

  /** `${n}` for a non-negative integer: its decimal digits, most significant first. */
  function DecimalText(n: nat): (s: string)
    ensures |s| >= 1 && AllDigits(s)
    decreases n
  {
    if n < 10 then [DigitChar(n)] else DecimalText(n / 10) + [DigitChar(n % 10)]
  }

  /** The value of a run of decimal digits. */
  function DigitsValue(ds: string): nat
    requires AllDigits(ds)
    decreases |ds|
  {
    if ds == [] then 0 else DigitsValue(ds[..|ds| - 1]) * 10 + DigitValue(ds[|ds| - 1])
  }

  /** Length of the longest prefix of `s` made of decimal digits. */
  function DigitRun(s: string): (n: nat)
    ensures n <= |s| && AllDigits(s[..n])
    ensures n < |s| ==> !IsDigit(s[n])
  {
    if s == [] || !IsDigit(s[0]) then 0
    else
      var rest := DigitRun(s[1..]);
      assert s[..1 + rest] == [s[0]] + s[1..][..rest];
      1 + rest
  }

  // ------------------------------------------------------------ whitespace

  /** The white space `trim` strips and `parseInt` skips: the WhiteSpace
      and LineTerminator characters of ECMAScript (tab, line feed, vertical
      tab, form feed, carriage return, space, no-break space, the other
      Unicode space separators, line and paragraph separator, and the byte
      order mark). */
  predicate IsSpace(c: char)
  {
    var u := c as int;
    || u == 0x20 || 0x09 <= u <= 0x0D || u == 0xA0 || u == 0x1680
    || 0x2000 <= u <= 0x200A || u == 0x2028 || u == 0x2029 || u == 0x202F
    || u == 0x205F || u == 0x3000 || u == 0xFEFF
  }

  predicate AllSpace(s: string) { forall i :: 0 <= i < |s| ==> IsSpace(s[i]) }

  /** The number of white-space characters `s` starts with. */
  function Lead(s: string): (n: nat)
    ensures n <= |s|
  {
    if s != [] && IsSpace(s[0]) then 1 + Lead(s[1..]) else 0
  }

  /** The number of white-space characters `s` ends with. */
  function Trail(s: string): (n: nat)
    ensures n <= |s|
  {
    if s != [] && IsSpace(s[|s| - 1]) then 1 + Trail(s[..|s| - 1]) else 0
  }

  lemma {:induction false} LeadIsSpace(s: string)
    ensures AllSpace(s[..Lead(s)])
    ensures Lead(s) < |s| ==> !IsSpace(s[Lead(s)])
  {
    if s != [] && IsSpace(s[0]) {
      LeadIsSpace(s[1..]);
      assert s[..Lead(s)] == [s[0]] + s[1..][..Lead(s[1..])];
    }
  }

  lemma {:induction false} TrailIsSpace(s: string)
    ensures AllSpace(s[|s| - Trail(s)..])
    ensures Trail(s) < |s| ==> !IsSpace(s[|s| - 1 - Trail(s)])
  {
    if s != [] && IsSpace(s[|s| - 1]) {
      var p := s[..|s| - 1];
      TrailIsSpace(p);
      assert s[|s| - Trail(s)..] == p[|p| - Trail(p)..] + [s[|s| - 1]];
    }
  }

  /** `s.trimStart()`, the white space `parseInt` skips. */
  function TrimStart(s: string): string
  {
    s[Lead(s)..]
  }

  /** `s.trim()`: the middle of `s` once the white space at both ends is
      cut off; it is empty exactly when `s` is all white space, and
      otherwise starts and ends with a character that is not white space. */
  function Trim(s: string): (t: string)
    ensures Lead(s) + |t| <= |s| && t == s[Lead(s)..Lead(s) + |t|]
    ensures AllSpace(s[..Lead(s)]) && AllSpace(s[Lead(s) + |t|..])
    ensures t != [] ==> !IsSpace(t[0]) && !IsSpace(t[|t| - 1])
    ensures t == [] <==> AllSpace(s)
  {
    LeadIsSpace(s);
    var u := s[Lead(s)..];
    TrailIsSpace(u);
    var t := u[..|u| - Trail(u)];
    assert s[Lead(s) + |t|..] == u[|t|..];
    assert t == [] ==> Lead(s) == |s|;
    assert s[..|s|] == s;
    t
  }

  /** Trimming a trimmed string changes nothing. */
  lemma TrimIdempotent(s: string)
    ensures Trim(Trim(s)) == Trim(s)
  {
    var t := Trim(s);
    if t != [] {
      assert Lead(t) == 0;
      assert t[..|t| - 1] + [t[|t| - 1]] == t;
      assert Trail(t) == 0;
    }
  }

  // ---------------------------------------------------------------- parseInt

  /** `parseInt(s, 10)`: skip leading white space, then read as
      `ParseSigned` says. */
  function ParseInt(s: string): Option<int>
  {
    ParseSigned(TrimStart(s))
  }

  /** `parseInt` after the white space: an optional sign and the longest
      run of digits after it; no digit at all gives NaN (None). */
  function ParseSigned(t: string): Option<int>
  {
    var negative := |t| > 0 && t[0] == '-';
    var body := if |t| > 0 && (t[0] == '+' || t[0] == '-') then t[1..] else t;
    var n := DigitRun(body);
    if n == 0 then None
    else
      var v: int := DigitsValue(body[..n]);
      Some(if negative then -v else v)
  }

  lemma {:induction false} DigitsValueOfDecimalText(n: nat)
    ensures DigitsValue(DecimalText(n)) == n
    decreases n
  {
    var s := DecimalText(n);
    if n >= 10 {
      DigitsValueOfDecimalText(n / 10);
      assert s[..|s| - 1] == DecimalText(n / 10);
    }
  }

  lemma {:induction false} DigitRunOfDigits(s: string)
    requires AllDigits(s)
    ensures DigitRun(s) == |s|
  {
    if s != [] {
      DigitRunOfDigits(s[1..]);
    }
  }

  /** A run of digits reads as its value, and as its negation after a
      minus sign. */
  lemma ParseSignedDigits(d: string)
    requires d != [] && AllDigits(d)
    ensures ParseSigned(d) == Some(DigitsValue(d))
    ensures ParseSigned("-" + d) == Some(-(DigitsValue(d) as int))
  {
    DigitRunOfDigits(d);
    assert d[..|d|] == d;
    assert ("-" + d)[1..] == d;
  }

  /** Text that starts with a character other than white space is read
      from its first character on. */
  lemma NoLeadingSpace(s: string)
    requires s != [] && !IsSpace(s[0])
    ensures ParseInt(s) == ParseSigned(s)
  {
    assert Lead(s) == 0;
    assert s[0..] == s;
  }

  /** Reading back the decimal text of a number gives the number. */
  lemma ParseIntOfDecimalText(n: nat)
    ensures ParseInt(DecimalText(n)) == Some(n)
  {
    var s := DecimalText(n);
    assert IsDigit(s[0]);
    NoLeadingSpace(s);
    ParseSignedDigits(s);
    DigitsValueOfDecimalText(n);
  }

  /** `String(n)` for an integer: a minus sign before the digits of a
      negative number. */
  function NumberText(n: int): (s: string)
    ensures |s| >= 1
  {
    if n < 0 then "-" + DecimalText(-n) else DecimalText(n)
  }

  /** `parseInt(String(n), 10)` is n again, so it is never NaN. */
  lemma ParseIntOfNumberText(n: int)
    ensures ParseInt(NumberText(n)) == Some(n)
  {
    if n < 0 {
      var d := DecimalText(-n);
      var s := NumberText(n);
      assert s == "-" + d;
      NoLeadingSpace(s);
      ParseSignedDigits(d);
      DigitsValueOfDecimalText(-n);
    } else {
      ParseIntOfDecimalText(n);
    }
  }

  // ------------------------------------------------------------ sequences

  /** `parts.join(sep)`. */
  function Join(parts: seq<string>, sep: string): string
  {
    if |parts| == 0 then ""
    else if |parts| == 1 then parts[0]
    else parts[0] + sep + Join(parts[1..], sep)
  }

  /** `xs.filter(keep)`: exactly the elements `keep` accepts, each as many
      times as in `xs`. */
  function Filter<T(!new)>(xs: seq<T>, keep: T -> bool): (r: seq<T>)
    ensures |r| <= |xs|
    ensures forall x :: x in r <==> x in xs && keep(x)
  {
    if xs == [] then []
    else
      assert xs == [xs[0]] + xs[1..];
      (if keep(xs[0]) then [xs[0]] else []) + Filter(xs[1..], keep)
  }

  /** Each kept element occurs in the result as often as in `xs`. */
  lemma {:induction false} FilterCounts<T(!new)>(xs: seq<T>, keep: T -> bool)
    ensures forall x :: multiset(Filter(xs, keep))[x] == if keep(x) then multiset(xs)[x] else 0
  {
    if xs != [] {
      FilterCounts(xs[1..], keep);
      assert xs == [xs[0]] + xs[1..];
    }
  }

  /** The positions of `xs` that `Filter` keeps, in increasing order. */
  function Kept<T(!new)>(xs: seq<T>, keep: T -> bool): (ks: seq<nat>)
    ensures |ks| == |Filter(xs, keep)|
  {
    if xs == [] then []
    else
      var shifted := Shifted(Kept(xs[1..], keep));
      if keep(xs[0]) then [0] + shifted else shifted
  }

  function Shifted(ns: seq<nat>): (r: seq<nat>)
    ensures |r| == |ns| && forall k :: 0 <= k < |ns| ==> r[k] == ns[k] + 1
  {
    seq(|ns|, k requires 0 <= k < |ns| => ns[k] + 1)
  }

  /** The kept positions lie in `xs` and increase strictly. */
  lemma {:induction false} KeptIncreasing<T(!new)>(xs: seq<T>, keep: T -> bool)
    ensures forall k :: 0 <= k < |Kept(xs, keep)| ==> Kept(xs, keep)[k] < |xs|
    ensures forall k, l :: 0 <= k < l < |Kept(xs, keep)| ==> Kept(xs, keep)[k] < Kept(xs, keep)[l]
  {
    if xs != [] {
      KeptIncreasing(xs[1..], keep);
      IncreasingStep(Kept(xs[1..], keep), |xs| - 1);
    }
  }

  /** One step of `KeptIncreasing`: increasing positions below `n` stay
      increasing, below `n + 1` and above 0 once moved up by one, also with
      position 0 put in front. */
  lemma IncreasingStep(ks: seq<nat>, n: nat)
    requires forall k :: 0 <= k < |ks| ==> ks[k] < n
    requires forall k, l :: 0 <= k < l < |ks| ==> ks[k] < ks[l]
    ensures forall k :: 0 <= k < |ks| ==> 0 < Shifted(ks)[k] < n + 1
    ensures forall k, l :: 0 <= k < l < |ks| ==> Shifted(ks)[k] < Shifted(ks)[l]
    ensures forall k :: 0 <= k < |ks| + 1 ==> ([0] + Shifted(ks))[k] < n + 1
    ensures forall k, l :: 0 <= k < l < |ks| + 1 ==> ([0] + Shifted(ks))[k] < ([0] + Shifted(ks))[l]
  {
    var sh := Shifted(ks);
    forall k, l | 0 <= k < l < |ks| + 1
      ensures ([0] + sh)[k] < ([0] + sh)[l]
    {
      assert ([0] + sh)[l] == sh[l - 1];
      if k > 0 {
        assert ([0] + sh)[k] == sh[k - 1];
      }
    }
    forall k | 0 <= k < |ks| + 1
      ensures ([0] + sh)[k] < n + 1
    {
      if k > 0 {
        assert ([0] + sh)[k] == sh[k - 1];
      }
    }
  }

  /** The filtered list is `xs` read at the kept positions, so with
      `KeptIncreasing` `Filter` keeps the order of `xs`. */
  lemma {:induction false} KeptReads<T(!new)>(xs: seq<T>, keep: T -> bool)
    ensures forall k :: 0 <= k < |Kept(xs, keep)| ==>
              Kept(xs, keep)[k] < |xs| && Filter(xs, keep)[k] == xs[Kept(xs, keep)[k]]
  {
    if xs != [] {
      KeptReads(xs[1..], keep);
      var rest := Kept(xs[1..], keep);
      var tail := Filter(xs[1..], keep);
      assert xs == [xs[0]] + xs[1..];
      ReadsStep(xs[0], xs[1..], rest, tail);
      if keep(xs[0]) {
        assert Kept(xs, keep) == [0] + Shifted(rest);
        assert Filter(xs, keep) == [xs[0]] + tail;
      } else {
        assert Kept(xs, keep) == Shifted(rest);
        assert Filter(xs, keep) == tail;
      }
    }
  }

  /** One step of `KeptReads`: reading a list at some positions carries
      over to the list with one element put in front, at the positions
      moved up by one, with or without that element. */
  lemma ReadsStep<T>(x: T, xs: seq<T>, ks: seq<nat>, r: seq<T>)
    requires |ks| == |r|
    requires forall k :: 0 <= k < |ks| ==> ks[k] < |xs| && r[k] == xs[ks[k]]
    ensures forall k :: 0 <= k < |ks| ==> Shifted(ks)[k] < |[x] + xs| && r[k] == ([x] + xs)[Shifted(ks)[k]]
    ensures forall k :: 0 <= k < |ks| + 1 ==>
              ([0] + Shifted(ks))[k] < |[x] + xs| && ([x] + r)[k] == ([x] + xs)[([0] + Shifted(ks))[k]]
  {
    var sh := Shifted(ks);
    forall k | 0 <= k < |ks| + 1
      ensures ([0] + sh)[k] < |[x] + xs| && ([x] + r)[k] == ([x] + xs)[([0] + sh)[k]]
    {
      if k > 0 {
        assert ([0] + sh)[k] == sh[k - 1];
      }
    }
  }

  /** Every position whose element is accepted is a kept position. */
  lemma {:induction false} KeptComplete<T(!new)>(xs: seq<T>, keep: T -> bool)
    ensures forall i :: 0 <= i < |xs| && keep(xs[i]) ==> i in Kept(xs, keep)
  {
    if xs != [] {
      KeptComplete(xs[1..], keep);
      var rest := Kept(xs[1..], keep);
      var shifted := Shifted(rest);
      forall i | 1 <= i < |xs| && keep(xs[i])
        ensures i in shifted
      {
        assert xs[1..][i - 1] == xs[i];
        var k :| 0 <= k < |rest| && rest[k] == i - 1;
        assert shifted[k] == i;
      }
    }
  }

  /** Filtering commutes with concatenation, so the survivors keep their order. */
  lemma {:induction false} FilterAppend<T(!new)>(xs: seq<T>, ys: seq<T>, keep: T -> bool)
    ensures Filter(xs + ys, keep) == Filter(xs, keep) + Filter(ys, keep)
  {
    if xs == [] {
      assert xs + ys == ys;
    } else {
      var head := if keep(xs[0]) then [xs[0]] else [];
      assert (xs + ys)[0] == xs[0];
      assert (xs + ys)[1..] == xs[1..] + ys;
      FilterAppend(xs[1..], ys, keep);
      calc {
        Filter(xs + ys, keep);
        head + Filter(xs[1..] + ys, keep);
        head + (Filter(xs[1..], keep) + Filter(ys, keep));
        (head + Filter(xs[1..], keep)) + Filter(ys, keep);
      }
    }
  }

  /** `xs.filter(y => y !== x)`. */
  function Without<T(==,!new)>(xs: seq<T>, x: T): (r: seq<T>)
    ensures x !in r
    ensures forall y :: y != x ==> multiset(r)[y] == multiset(xs)[y]
    ensures x !in xs ==> r == xs
  {
    FilterKeepsAll(xs, Other(x));
    FilterCounts(xs, Other(x));
    Filter(xs, Other(x))
  }

  /** `y => y !== x`. */
  function Other<T(==)>(x: T): T -> bool
  {
    y => y != x
  }

  /** Removing x commutes with concatenation: the others keep their order. */
  lemma WithoutAppend<T(!new)>(xs: seq<T>, ys: seq<T>, x: T)
    ensures Without(xs + ys, x) == Without(xs, x) + Without(ys, x)
  {
    FilterAppend(xs, ys, Other(x));
  }

  lemma {:induction false} FilterKeepsAll<T(!new)>(xs: seq<T>, keep: T -> bool)
    ensures (forall x :: x in xs ==> keep(x)) ==> Filter(xs, keep) == xs
  {
    if xs != [] {
      FilterKeepsAll(xs[1..], keep);
      assert xs == [xs[0]] + xs[1..];
    }
  }

  /** No element occurs twice. */
  ghost predicate Distinct<T(!new)>(xs: seq<T>) { forall x :: multiset(xs)[x] <= 1 }

  /** `xs.slice(-n)` for n >= 1: the last n elements, or all of them. */
  function Last<T>(xs: seq<T>, n: nat): (r: seq<T>)
    requires n >= 1
    ensures |r| == if |xs| <= n then |xs| else n
    ensures r == xs[|xs| - |r|..]
  {
    if |xs| <= n then xs else xs[|xs| - n..]
  }

  /** `[...new Set(xs)]` after `seen`: the first occurrence of every element
      not yet seen, in order. */
  function DedupAfter<T(==,!new)>(xs: seq<T>, seen: set<T>): (r: seq<T>)
    ensures Distinct(r)
    ensures forall x :: x in r <==> x in xs && x !in seen
  {
    if xs == [] then []
    else if xs[0] in seen then DedupAfter(xs[1..], seen)
    else
      var rest := DedupAfter(xs[1..], seen + {xs[0]});
      assert xs[0] !in rest;
      [xs[0]] + rest
  }

  function Dedup<T(==,!new)>(xs: seq<T>): (r: seq<T>)
    ensures Distinct(r)
    ensures forall x :: x in r <==> x in xs
  {
    DedupAfter(xs, {})
  }
}

=== FILE: leaderboard.dfy ===
/** The `/history/:handle` route of backend/routes/leaderboardRoutes.js:
    pick the finished games a player took part in, summarise each from the
    player's side (team, both teams' claim counts, Win/Loss/Draw) and count
    the results. The stored rooms are given as a list of records. */
module Leaderboard {
  import opened Wrappers
  import opened JsBuiltins
  import opened RoomModel

  /** The `result` field: 'Win', 'Loss' or 'Draw'. */
  datatype Outcome = Win | Loss | Tie

  /** One side of a history entry: `{ name, players, solvedCount }`. */
  datatype Side = Side(name: TeamName, players: seq<string>, solvedCount: nat)

  /** One entry of `gameHistory`. */
  datatype Entry = Entry(
    gameId: string,
    date: int,
    userTeam: Side,
    opponentTeam: Side,
    result: Outcome,
    totalSolved: nat,
    winner: Winner)

  /** `stats` without the floating-point win rate. */
  datatype Stats = Stats(totalGames: nat, wins: nat, losses: nat, draws: nat)

  /** The query: a finished game (`winner` not null) with the handle on
      either roster. */
  predicate InHistory(g: RoomRecord, handle: string)
  {
    g.winner.Some? && (handle in g.teamA || handle in g.teamB)
  }

  /** `wasInTeamA ? 'teamA' : 'teamB'`. */
  function UserTeam(g: RoomRecord, handle: string): (t: TeamName)
    ensures t == TeamA <==> handle in g.teamA
  {
    if handle in g.teamA then TeamA else TeamB
  }

  function Other(t: TeamName): (o: TeamName)
    ensures o != t
  {
    if t == TeamA then TeamB else TeamA
  }

  /** The number of the given ledger keys whose entry credits a team. */
  function CreditedIn(ledger: map<Key, Claim>, keys: set<Key>, t: TeamName): nat
    requires keys <= ledger.Keys
  {
    |set k | k in keys && ledger[k].team == t|
  }

  /** The number of ledger entries credited to a team. */
  function Credited(ledger: map<Key, Claim>, t: TeamName): nat
  {
    CreditedIn(ledger, ledger.Keys, t)
  }

  /** Adding one key adds one to the count of the team its entry credits
      and nothing to the other's. */
  lemma CreditedInStep(ledger: map<Key, Claim>, keys: set<Key>, k: Key, t: TeamName)
    requires keys <= ledger.Keys && k in ledger && k !in keys
    ensures CreditedIn(ledger, keys + {k}, t) == CreditedIn(ledger, keys, t) + if ledger[k].team == t then 1 else 0
  {
    var before := set x | x in keys && ledger[x].team == t;
    var after := set x | x in keys + {k} && ledger[x].team == t;
    if ledger[k].team == t {
      assert after == before + {k};
    } else {
      assert after == before;
    }
  }

  /** Every claim is credited to exactly one team, so the two counts add up
      to the number of claimed cells. */
  lemma CreditedAddUp(ledger: map<Key, Claim>)
    ensures Credited(ledger, TeamA) + Credited(ledger, TeamB) == |ledger|
  {
    var a := set k | k in ledger && ledger[k].team == TeamA;
    var b := set k | k in ledger && ledger[k].team == TeamB;
    assert a + b == ledger.Keys;
    assert a * b == {};
    assert |a + b| == |a| + |b|;
  }

  /** The result from the player's side: 'Draw' exactly for a drawn game,
      otherwise 'Win' exactly when the player's team won. */
  function ResultFor(winner: Winner, userTeam: TeamName): (r: Outcome)
    ensures r == Tie <==> winner == Draw
    ensures r == Win <==> winner == Won(userTeam)
    ensures r == Loss <==> winner == Won(Other(userTeam))
  {
    if winner == Draw then Tie
    else if winner == Won(userTeam) then Win
    else assert winner.team == Other(userTeam); Loss
  }

  /** The entry for one game, given its two claim counts. */
  function Summary(g: RoomRecord, handle: string, countA: nat, countB: nat): Entry
    requires g.winner.Some?
  {
    var mine := UserTeam(g, handle);
    var wasInTeamA := mine == TeamA;
    Entry(g.roomId, g.createdAt,
          Side(mine, if wasInTeamA then g.teamA else g.teamB, if wasInTeamA then countA else countB),
          Side(Other(mine), if wasInTeamA then g.teamB else g.teamA, if wasInTeamA then countB else countA),
          ResultFor(g.winner.value, mine),
          countA + countB,
          g.winner.value)
  }

  /** The entry for one game, with its claim counts read off the ledger. */
  function EntryFor(g: RoomRecord, handle: string): (e: Entry)
    requires g.winner.Some?
  {
    Summary(g, handle, Credited(g.solvedProblems, TeamA), Credited(g.solvedProblems, TeamB))
  }

  /** What an entry says: the player's side is their team with its roster
      and count, the opponent is the other team, the total is the number of
      claimed cells and the result is read from the winner. */
  lemma EntryForMeaning(g: RoomRecord, handle: string)
    requires g.winner.Some?
    ensures var e := EntryFor(g, handle);
            && e.userTeam.name == UserTeam(g, handle)
            && e.opponentTeam.name != e.userTeam.name
            && e.userTeam.players == (if handle in g.teamA then g.teamA else g.teamB)
            && e.userTeam.solvedCount == Credited(g.solvedProblems, e.userTeam.name)
            && e.opponentTeam.solvedCount == Credited(g.solvedProblems, e.opponentTeam.name)
            && e.totalSolved == e.userTeam.solvedCount + e.opponentTeam.solvedCount == |g.solvedProblems|
            && e.result == ResultFor(g.winner.value, e.userTeam.name)
  {
    CreditedAddUp(g.solvedProblems);
  }

  /** Two players on opposite rosters of a game one team won get opposite
      results, and in a drawn game both get 'Draw'. */
  lemma OpponentsDisagree(g: RoomRecord, h1: string, h2: string)
    requires g.winner.Some? && h1 in g.teamA && h2 in g.teamB && h2 !in g.teamA
    ensures g.winner.value == Draw ==> EntryFor(g, h1).result == Tie && EntryFor(g, h2).result == Tie
    ensures g.winner.value != Draw ==> (EntryFor(g, h1).result == Win <==> EntryFor(g, h2).result == Loss)
  {
  }

  /** The `solvedCount` loop: one increment per ledger entry, for the team
      the entry credits. */
  method CountSolved(ledger: map<Key, Claim>) returns (countA: nat, countB: nat)
    ensures countA == Credited(ledger, TeamA) && countB == Credited(ledger, TeamB)
  {
    countA, countB := 0, 0;
    var done: set<Key> := {};
    while done != ledger.Keys
      invariant done <= ledger.Keys
      invariant countA == CreditedIn(ledger, done, TeamA) && countB == CreditedIn(ledger, done, TeamB)
      decreases |ledger.Keys - done|
    {
      var k :| k in ledger.Keys - done;
      CreditedInStep(ledger, done, k, TeamA);
      CreditedInStep(ledger, done, k, TeamB);
      if ledger[k].team == TeamA {
        countA := countA + 1;
      } else {
        countB := countB + 1;
      }
      done := done + {k};
    }
  }

  function HasResult(o: Outcome): Entry -> bool
  {
    (e: Entry) => e.result == o
  }

  /** `stats`: the number of entries and of each result. */
  function StatsOf(history: seq<Entry>): Stats
  {
    Stats(|history|, |Filter(history, HasResult(Win))|, |Filter(history, HasResult(Loss))|,
          |Filter(history, HasResult(Tie))|)
  }

  /** Every entry has one of the three results, so they add up to the
      number of games. */
  lemma {:induction false} StatsAddUp(history: seq<Entry>)
    ensures StatsOf(history).wins + StatsOf(history).losses + StatsOf(history).draws == StatsOf(history).totalGames
  {
    if history != [] {
      StatsAddUp(history[1..]);
    }
  }

  /** The route: the finished games of the handle, each summarised, and the
      counts of results. The games are in the order given. */
  method History(games: seq<RoomRecord>, handle: string) returns (history: seq<Entry>, stats: Stats)
    ensures var picked := Filter(games, g => InHistory(g, handle));
            && |history| == |picked|
            && (forall i :: 0 <= i < |picked| ==> picked[i].winner.Some? && history[i] == EntryFor(picked[i], handle))
    ensures stats == StatsOf(history)
  {
    var picked := Filter(games, g => InHistory(g, handle));
    history := [];
    for i := 0 to |picked|
      invariant |history| == i
      invariant forall j :: 0 <= j < i ==> picked[j].winner.Some? && history[j] == EntryFor(picked[j], handle)
    {
      var g := picked[i];
      assert g in picked;
      var countA, countB := CountSolved(g.solvedProblems);
      history := history + [Summary(g, handle, countA, countB)];
    }
    stats := StatsOf(history);
  }
}

=== FILE: room.dfy ===
/** The room record of backend/models/Room.js: rosters, board, the claim
    ledger (`solvedProblems`), its mark projection (`gameState`), the
    winner, and the room's own helpers `isSolved`, `getGameState` and
    `checkWin`. The win/draw rule is stated once as the function
    `Evaluate`; `Room.CheckWin` is the source's imperative scan, proved to
    compute it. */
module RoomModel {
  import opened Wrappers
  import opened JsBuiltins
  import opened Catalog

  /** 'teamA' / 'teamB', the team names the routes and the ledger use. */
  datatype TeamName = TeamA | TeamB

  /** The `winner` enum minus null: 'teamA', 'teamB' or 'draw'. */
  datatype Winner = Won(team: TeamName) | Draw

  /** The map key `${row},${col}`. The decimal texts of two integers joined
      by a comma determine the pair, so the key is kept as the pair. */
  datatype Key = Key(row: int, col: int)

  /** A ledger entry `{team, solver, solvedAt}`; times are milliseconds. */
  datatype Claim = Claim(team: TeamName, solver: string, solvedAt: int)

  /** 'X' for teamA, 'O' for teamB. */
  function MarkOf(team: TeamName): string
  {
    if team == TeamA then "X" else "O"
  }

  predicate InGrid(k: Key)
  {
    0 <= k.row < 3 && 0 <= k.col < 3
  }

  // ------------------------------------------------------------ invariants

  /** At most two players per team, nobody twice, nobody on both teams. */
  ghost predicate RostersValid(teamA: seq<string>, teamB: seq<string>)
  {
    && |teamA| <= 2 && |teamB| <= 2
    && Distinct(teamA) && Distinct(teamB)
    && forall h :: h in teamA ==> h !in teamB
  }

  /** The marks are the projection of the ledger: same keys, and each mark
      is the claiming team's symbol. */
  predicate LedgerMatchesMarks(ledger: map<Key, Claim>, marks: map<Key, string>)
  {
    ledger.Keys == marks.Keys && forall k :: k in ledger ==> marks[k] == MarkOf(ledger[k].team)
  }

  // ------------------------------------------------------- win evaluation

  /** `gameState.get(key)`: the mark under a key, or undefined. */
  function At(marks: map<Key, string>, k: Key): Option<string>
  {
    if k in marks then Some(marks[k]) else None
  }

  /** The eight lines in the order they are tested: rows 0-2 (lines 0-2),
      columns 0-2 (lines 3-5), the main diagonal (6), the anti-diagonal (7).
      The first cell of each line is the one whose mark names the winner. */
  function LineCells(k: nat): (cells: seq<Key>)
    requires k < 8
    ensures |cells| == 3 && forall c :: c in cells ==> InGrid(c)
  {
    if k < 3 then [Key(k, 0), Key(k, 1), Key(k, 2)]
    else if k < 6 then [Key(0, k - 3), Key(1, k - 3), Key(2, k - 3)]
    else if k == 6 then [Key(0, 0), Key(1, 1), Key(2, 2)]
    else [Key(0, 2), Key(1, 1), Key(2, 0)]
  }

  /** Line k holds three equal truthy marks. */
  predicate LineWon(marks: map<Key, string>, k: nat)
    requires k < 8
  {
    var c := LineCells(k);
    Truthy(At(marks, c[0])) && At(marks, c[0]) == At(marks, c[1]) && At(marks, c[0]) == At(marks, c[2])
  }

  function LineMark(marks: map<Key, string>, k: nat): string
    requires k < 8 && LineWon(marks, k)
  {
    At(marks, LineCells(k)[0]).value
  }

  /** `mark === 'X' ? 'teamA' : 'teamB'`: any other truthy mark counts for teamB. */
  function WinnerOfMark(m: string): Winner
  {
    if m == "X" then Won(TeamA) else Won(TeamB)
  }

  /** The first won line at or after `from`, in scan order. */
  function FirstWonLine(marks: map<Key, string>, from: nat): (r: Option<nat>)
    requires from <= 8
    ensures r.Some? ==> from <= r.value < 8 && LineWon(marks, r.value)
    ensures r.Some? ==> forall j :: from <= j < r.value ==> !LineWon(marks, j)
    ensures r.None? ==> forall j :: from <= j < 8 ==> !LineWon(marks, j)
    decreases 8 - from
  {
    if from == 8 then None
    else if LineWon(marks, from) then Some(from)
    else FirstWonLine(marks, from + 1)
  }

  predicate IsFirstWonLine(marks: map<Key, string>, k: nat)
  {
    k < 8 && LineWon(marks, k) && forall j :: 0 <= j < k ==> !LineWon(marks, j)
  }

  predicate NoLineWon(marks: map<Key, string>)
  {
    forall k :: 0 <= k < 8 ==> !LineWon(marks, k)
  }

  /** All nine cells "i,j", 0 <= i, j <= 2, hold a truthy mark. */
  predicate AllFilled(marks: map<Key, string>)
  {
    forall i, j :: 0 <= i < 3 && 0 <= j < 3 ==> Truthy(At(marks, Key(i, j)))
  }

  /** The outcome `checkWin` reports for a mark map: the first won line
      decides; otherwise a full board is a draw and anything else is null. */
  function Evaluate(marks: map<Key, string>): Option<Winner>
  {
    match FirstWonLine(marks, 0)
    case Some(k) => Some(WinnerOfMark(LineMark(marks, k)))
    case None => if AllFilled(marks) then Some(Draw) else None
  }

  /** The four possible answers of the evaluator, each with its exact condition. */
  lemma EvaluateCases(marks: map<Key, string>)
    ensures Evaluate(marks) == Some(Won(TeamA)) <==>
              exists k :: IsFirstWonLine(marks, k) && LineMark(marks, k) == "X"
    ensures Evaluate(marks) == Some(Won(TeamB)) <==>
              exists k :: IsFirstWonLine(marks, k) && LineMark(marks, k) != "X"
    ensures Evaluate(marks) == Some(Draw) <==> NoLineWon(marks) && AllFilled(marks)
    ensures Evaluate(marks) == None <==> NoLineWon(marks) && !AllFilled(marks)
  {
    var first := FirstWonLine(marks, 0);
    if first.Some? {
      assert IsFirstWonLine(marks, first.value);
      forall k | IsFirstWonLine(marks, k) ensures k == first.value { }
    } else {
      forall k | 0 <= k < 8 ensures !IsFirstWonLine(marks, k) { }
    }
  }

  lemma {:induction false} FirstWonLineReadsGrid(m1: map<Key, string>, m2: map<Key, string>, from: nat)
    requires from <= 8
    requires forall i, j :: 0 <= i < 3 && 0 <= j < 3 ==> At(m1, Key(i, j)) == At(m2, Key(i, j))
    ensures FirstWonLine(m1, from) == FirstWonLine(m2, from)
    ensures forall k :: from <= k < 8 ==> (LineWon(m1, k) <==> LineWon(m2, k))
    decreases 8 - from
  {
    if from < 8 {
      var c := LineCells(from);
      assert At(m1, c[0]) == At(m2, c[0]) && At(m1, c[1]) == At(m2, c[1]) && At(m1, c[2]) == At(m2, c[2]);
      FirstWonLineReadsGrid(m1, m2, from + 1);
    }
  }

  /** Only the nine in-range keys matter: two mark maps that agree on them
      are evaluated alike, whatever else they hold. */
  lemma EvaluateReadsOnlyGrid(m1: map<Key, string>, m2: map<Key, string>)
    requires forall i, j :: 0 <= i < 3 && 0 <= j < 3 ==> At(m1, Key(i, j)) == At(m2, Key(i, j))
    ensures Evaluate(m1) == Evaluate(m2)
  {
    FirstWonLineReadsGrid(m1, m2, 0);
    var first := FirstWonLine(m1, 0);
    if first.Some? {
      var c := LineCells(first.value);
      assert At(m1, c[0]) == At(m2, c[0]);
    }
  }

  /** The winner is not permanent: claims keep being accepted after a win,
      and a line earlier in scan order then takes over. Row 2 of teamA
      marks wins for teamA; once teamB also fills row 0, the result is teamB. */
  lemma WinnerCanChange()
    ensures var before := map[Key(2, 0) := "X", Key(2, 1) := "X", Key(2, 2) := "X"];
            var after := before[Key(0, 0) := "O"][Key(0, 1) := "O"][Key(0, 2) := "O"];
            Evaluate(before) == Some(Won(TeamA)) && Evaluate(after) == Some(Won(TeamB))
  {
    var before := map[Key(2, 0) := "X", Key(2, 1) := "X", Key(2, 2) := "X"];
    var after := before[Key(0, 0) := "O"][Key(0, 1) := "O"][Key(0, 2) := "O"];
    assert !LineWon(before, 0) && !LineWon(before, 1) && LineWon(before, 2);
    assert FirstWonLine(before, 0) == Some(2);
    assert LineWon(after, 0);
  }

  // ------------------------------------------------------------- the room

  /** A snapshot of every persisted field, as sent to clients and read by
      the history endpoint. */
  datatype RoomRecord = RoomRecord(
    roomId: string,
    teamA: seq<string>,
    teamB: seq<string>,
    gameStarted: bool,
    board: Option<Board>,
    settings: Option<Settings>,
    solvedProblems: map<Key, Claim>,
    gameState: map<Key, string>,
    winner: Option<Winner>,
    createdAt: int)

  class Room {
    const roomId: string
    var teamA: seq<string>
    var teamB: seq<string>
    var gameStarted: bool
    var board: Option<Board>
    var settings: Option<Settings>
    var solvedProblems: map<Key, Claim>
    var gameState: map<Key, string>
    var winner: Option<Winner>
    const createdAt: int

    /** The record invariant every operation of the game keeps. */
    ghost predicate Valid()
      reads this
    {
      && RostersValid(teamA, teamB)
      && LedgerMatchesMarks(solvedProblems, gameState)
      && (forall k :: k in solvedProblems ==> InGrid(k))
      && (gameStarted <==> board.Some?)
      && (board.Some? ==> IsGrid(board.value))
      && (winner.Some? ==> gameStarted)
    }

    /** A new room: empty rosters, no board, not started, empty ledger. */
    constructor (roomId: string, createdAt: int)
      ensures this.roomId == roomId && this.createdAt == createdAt
      ensures teamA == [] && teamB == [] && !gameStarted
      ensures board == None && settings == None
      ensures solvedProblems == map[] && gameState == map[] && winner == None
      ensures Valid()
    {
      this.roomId := roomId;
      this.createdAt := createdAt;
      teamA, teamB := [], [];
      gameStarted := false;
      board, settings := None, None;
      solvedProblems, gameState := map[], map[];
      winner := None;
    }

    function Record(): RoomRecord
      reads this
    {
      RoomRecord(roomId, teamA, teamB, gameStarted, board, settings, solvedProblems, gameState, winner, createdAt)
    }

    /** `isSolved(row, col)`. */
    function IsSolved(row: int, col: int): bool
      reads this
    {
      Key(row, col) in solvedProblems
    }

    /** `getGameState(row, col)`. */
    function GetGameState(row: int, col: int): Option<string>
      reads this
    {
      At(gameState, Key(row, col))
    }

    /** A cell is solved exactly when it carries a mark, and the mark is
        the symbol of the team that claimed it. */
    lemma SolvedIffMarked(row: int, col: int)
      requires Valid()
      ensures IsSolved(row, col) <==> GetGameState(row, col).Some?
      ensures IsSolved(row, col) ==>
                GetGameState(row, col) == Some(MarkOf(solvedProblems[Key(row, col)].team))
    {
    }

    /** `checkWin`: copy the nine marks into a local 3x3 grid, test rows,
        columns and diagonals, then scan for an empty cell. Reads the marks
        and changes nothing. */
    method CheckWin() returns (result: Option<Winner>)
      ensures result == Evaluate(gameState)
    {
      // the source's local `board`
      var grid := CopyMarks();
      // rows
      for i := 0 to 3
        invariant forall k :: 0 <= k < i ==> !LineWon(gameState, k)
      {
        if Truthy(grid[i, 0]) && grid[i, 0] == grid[i, 1] && grid[i, 0] == grid[i, 2] {
          assert IsFirstWonLine(gameState, i);
          return Some(WinnerOfMark(grid[i, 0].value));
        }
      }
      // columns
      for j := 0 to 3
        invariant forall k :: 0 <= k < 3 + j ==> !LineWon(gameState, k)
      {
        if Truthy(grid[0, j]) && grid[0, j] == grid[1, j] && grid[0, j] == grid[2, j] {
          assert IsFirstWonLine(gameState, 3 + j);
          return Some(WinnerOfMark(grid[0, j].value));
        }
      }
      // diagonals
      if Truthy(grid[0, 0]) && grid[0, 0] == grid[1, 1] && grid[0, 0] == grid[2, 2] {
        assert IsFirstWonLine(gameState, 6);
        return Some(WinnerOfMark(grid[0, 0].value));
      }
      if Truthy(grid[0, 2]) && grid[0, 2] == grid[1, 1] && grid[0, 2] == grid[2, 0] {
        assert IsFirstWonLine(gameState, 7);
        return Some(WinnerOfMark(grid[0, 2].value));
      }
      assert NoLineWon(gameState);
      var isDraw := AllCellsFilled(grid);
      result := if isDraw then Some(Draw) else None;
    }

    /** The nested loops that copy the nine marks into a 3x3 array. */
    method CopyMarks() returns (grid: array2<Option<string>>)
      ensures fresh(grid) && grid.Length0 == 3 && grid.Length1 == 3
      ensures forall a, b :: 0 <= a < 3 && 0 <= b < 3 ==> grid[a, b] == At(gameState, Key(a, b))
    {
      grid := new Option<string>[3, 3];
      for i := 0 to 3
        invariant forall a, b :: 0 <= a < i && 0 <= b < 3 ==> grid[a, b] == At(gameState, Key(a, b))
      {
        for j := 0 to 3
          invariant forall a, b :: 0 <= a < i && 0 <= b < 3 ==> grid[a, b] == At(gameState, Key(a, b))
          invariant forall b :: 0 <= b < j ==> grid[i, b] == At(gameState, Key(i, b))
        {
          grid[i, j] := At(gameState, Key(i, j));
        }
      }
    }

    /** The draw scan: every cell of the copied grid holds a truthy mark,
        stopping at the first empty one. */
    method AllCellsFilled(grid: array2<Option<string>>) returns (isDraw: bool)
      requires grid.Length0 == 3 && grid.Length1 == 3
      requires forall a, b :: 0 <= a < 3 && 0 <= b < 3 ==> grid[a, b] == At(gameState, Key(a, b))
      ensures isDraw == AllFilled(gameState)
    {
      isDraw := true;
      for i := 0 to 3
        invariant isDraw
        invariant forall a, b :: 0 <= a < i && 0 <= b < 3 ==> Truthy(grid[a, b])
      {
        for j := 0 to 3
          invariant isDraw
          invariant forall b :: 0 <= b < j ==> Truthy(grid[i, b])
        {
          if !Truthy(grid[i, j]) {
            assert !AllFilled(gameState);
            isDraw := false;
            break;
          }
        }
        if !isDraw {
          break;
        }
      }
    }
  }
}

=== FILE: room_manager.dfy ===
/** The room service of backend/services/roomManager.js: room creation,
    joining a team, starting a game and the two membership queries. A room
    lookup by id becomes a `Room?` argument (null when no room has that
    id); the random room id and the board provider are arguments too. */
module RoomManager {
  import opened Wrappers
  import opened JsBuiltins
  import opened Catalog
  import opened RoomModel

  /** `createRoom`: a fresh room under the given id with empty rosters, no
      board and the game not started. */
  method CreateRoom(roomId: string, now: int) returns (room: Room)
    ensures fresh(room)
    ensures room.roomId == roomId && room.createdAt == now
    ensures room.teamA == [] && room.teamB == [] && room.board == None && !room.gameStarted
    ensures room.solvedProblems == map[] && room.gameState == map[] && room.winner == None
    ensures room.Valid()
  {
    room := new Room(roomId, now);
  }

  /** The rosters `joinRoom` saves, or None when it refuses: the handle is
      first removed from both teams and then appended to teamA for the code
      'A' and to teamB for any other code, unless that team already holds
      two other players. */
  function JoinRosters(teamA: seq<string>, teamB: seq<string>, handle: string, team: string)
    : Option<(seq<string>, seq<string>)>
  {
    var a := Without(teamA, handle);
    var b := Without(teamB, handle);
    if team == "A" then
      if |a| >= 2 then None else Some((a + [handle], b))
    else
      if |b| >= 2 then None else Some((a, b + [handle]))
  }

  /** A join is refused exactly when the chosen team (teamA for 'A', teamB
      for anything else) already holds two players other than the handle.
      Otherwise the handle ends its team, once, is on no other team, and
      every other player's place count on each roster is unchanged. */
  lemma JoinRostersMeaning(teamA: seq<string>, teamB: seq<string>, handle: string, team: string)
    ensures var r := JoinRosters(teamA, teamB, handle, team);
            && (r.None? <==> |Without(if team == "A" then teamA else teamB, handle)| >= 2)
            && (r.Some? ==>
                  var (a, b) := r.value;
                  var (mine, other) := if team == "A" then (a, b) else (b, a);
                  && 1 <= |mine| <= 2 && mine[|mine| - 1] == handle
                  && multiset(mine)[handle] == 1 && handle !in other
                  && forall h :: h != handle ==> multiset(a)[h] == multiset(teamA)[h] && multiset(b)[h] == multiset(teamB)[h])
  {
  }

  /** A join keeps both rosters within two players, free of repeats and
      disjoint. */
  lemma JoinKeepsRostersValid(teamA: seq<string>, teamB: seq<string>, handle: string, team: string)
    requires RostersValid(teamA, teamB)
    ensures JoinRosters(teamA, teamB, handle, team).Some? ==>
              RostersValid(JoinRosters(teamA, teamB, handle, team).value.0, JoinRosters(teamA, teamB, handle, team).value.1)
  {
    var r := JoinRosters(teamA, teamB, handle, team);
    JoinRostersMeaning(teamA, teamB, handle, team);
    if r.Some? {
      var (a, b) := r.value;
      forall h ensures multiset(a)[h] <= 1 && multiset(b)[h] <= 1 {
        if h != handle {
          assert multiset(teamA)[h] <= 1 && multiset(teamB)[h] <= 1;
        }
      }
      forall h | h in a ensures h !in b {
        if h != handle {
          assert multiset(a)[h] == multiset(teamA)[h];
          assert multiset(b)[h] == multiset(teamB)[h];
        }
      }
      if team == "A" {
        assert |Without(teamB, handle)| <= |teamB|;
      } else {
        assert |Without(teamA, handle)| <= |teamA|;
      }
    }
  }

  /** `joinRoom`: refused, with nothing saved, when there is no such room,
      the game has started or the chosen team is full; otherwise the rosters
      become `JoinRosters` of the old ones and nothing else changes. */
  method JoinRoom(room: Room?, handle: string, team: string) returns (ok: bool)
    requires room != null ==> room.Valid()
    modifies room
    ensures room == null ==> !ok
    ensures room != null ==>
              ok == (!old(room.gameStarted) && JoinRosters(old(room.teamA), old(room.teamB), handle, team).Some?)
    ensures ok ==> (room.teamA, room.teamB) == JoinRosters(old(room.teamA), old(room.teamB), handle, team).value
    ensures room != null && !ok ==> unchanged(room)
    ensures room != null ==>
              && room.gameStarted == old(room.gameStarted) && room.board == old(room.board)
              && room.settings == old(room.settings) && room.solvedProblems == old(room.solvedProblems)
              && room.gameState == old(room.gameState) && room.winner == old(room.winner)
    ensures room != null ==> room.Valid()
  {
    if room == null || room.gameStarted {
      return false;
    }
    var joined := MoveToTeam(room.teamA, room.teamB, handle, team);
    if joined.None? {
      return false;
    }
    JoinKeepsRostersValid(room.teamA, room.teamB, handle, team);
    room.teamA, room.teamB := joined.value.0, joined.value.1;
    ok := true;
  }

  /** The roster step of `joinRoom`: filter the handle out of both teams,
      refuse a full target team, otherwise push the handle onto it. */
  method MoveToTeam(teamA: seq<string>, teamB: seq<string>, handle: string, team: string)
    returns (r: Option<(seq<string>, seq<string>)>)
    ensures r == JoinRosters(teamA, teamB, handle, team)
  {
    var a := Without(teamA, handle);
    var b := Without(teamB, handle);
    if team == "A" {
      if |a| >= 2 {
        return None;
      }
      a := a + [handle];
    } else {
      if |b| >= 2 {
        return None;
      }
      b := b + [handle];
    }
    r := Some((a, b));
  }

  /** `startGame`: refused when there is no such room, the game has started
      or a team is empty; otherwise the board the provider produced for the
      rosters and settings (or its error) is the answer, and on success the
      room records the board, the settings and that the game has started. */
  method StartGame(room: Room?, settings: Option<Settings>, provisioned: Result<Board, string>)
    returns (r: Result<Board, string>)
    requires room != null ==> room.Valid()
    requires provisioned.Success? ==> IsGrid(provisioned.value)
    modifies room
    ensures room == null ==> r == Failure("Room not found")
    ensures room != null && old(room.gameStarted) ==> r == Failure("Game already started")
    ensures room != null && !old(room.gameStarted) && (old(|room.teamA|) == 0 || old(|room.teamB|) == 0) ==>
              r == Failure("Both teams must have at least one player")
    ensures room != null && !old(room.gameStarted) && old(|room.teamA|) > 0 && old(|room.teamB|) > 0 ==>
              r == provisioned
    ensures room != null && r.Failure? ==> unchanged(room)
    ensures r.Success? ==>
              && room.gameStarted && room.board == Some(r.value) && room.settings == settings
              && room.teamA == old(room.teamA) && room.teamB == old(room.teamB)
              && room.solvedProblems == old(room.solvedProblems) && room.gameState == old(room.gameState)
              && room.winner == old(room.winner)
    ensures room != null ==> room.Valid()
  {
    if room == null {
      return Failure("Room not found");
    }
    if room.gameStarted {
      return Failure("Game already started");
    }
    if |room.teamA| == 0 || |room.teamB| == 0 {
      return Failure("Both teams must have at least one player");
    }
    if provisioned.Failure? {
      return provisioned;
    }
    room.board := Some(provisioned.value);
    room.gameStarted := true;
    room.settings := settings;
    r := provisioned;
  }

  /** `isPlayerInRoom`. */
  predicate IsPlayerInRoom(room: Room?, handle: string)
    reads room
  {
    room != null && (handle in room.teamA || handle in room.teamB)
  }

  /** `getPlayerTeam`: 'A' when the handle is on teamA (looked at first),
      'B' when it is on teamB, otherwise null. */
  function GetPlayerTeam(room: Room?, handle: string): (r: Option<string>)
    reads room
    ensures r.Some? <==> IsPlayerInRoom(room, handle)
    ensures r.Some? ==> r.value == "A" || r.value == "B"
    ensures r == Some("A") <==> room != null && handle in room.teamA
  {
    if room == null then None
    else if handle in room.teamA then Some("A")
    else if handle in room.teamB then Some("B")
    else None
  }

  /** In a valid room the two rosters are disjoint, so 'B' means exactly
      membership of teamB. */
  lemma PlayerTeamB(room: Room, handle: string)
    requires room.Valid()
    ensures GetPlayerTeam(room, handle) == Some("B") <==> handle in room.teamB
  {
  }
}

=== FILE: room_routes.dfy ===
/** The room routes of backend/routes/roomRoutes.js: claim resolution
    (`POST /update/:roomId`), joining (`POST /join`) and starting
    (`POST /start/:roomId`). One request is handled at a time; the room the
    id names is a `Room?` argument, and the Codeforces reply, the clock and
    the provisioned board are arguments. */
module RoomRoutes {
  import opened Wrappers
  import opened JsBuiltins
  import opened Catalog
  import opened RoomModel
  import opened RoomManager
  import opened Codeforces

  /** An error response: HTTP status and the `error` text of its body. */
  datatype HttpError = HttpError(status: int, error: string)

  /** `error.message || fallback`, the text of a 500 response. */
  function ServerErrorText(message: string, fallback: string): string
  {
    if message != "" then message else fallback
  }

  // --------------------------------------------------------------- claims

  /** The claimant's team: teamA when the handle is on teamA, otherwise
      teamB when it is on teamB, otherwise none. */
  function ClaimantTeam(teamA: seq<string>, teamB: seq<string>, handle: string): Option<TeamName>
  {
    if handle in teamA then Some(TeamA) else if handle in teamB then Some(TeamB) else None
  }

  /** The route's 'teamA'/'teamB' and the service's 'A'/'B' name the same
      team for every handle, and both are absent for a non-member. */
  lemma ClaimantTeamMatchesPlayerTeam(room: Room, handle: string)
    ensures ClaimantTeam(room.teamA, room.teamB, handle) == Some(TeamA) <==> GetPlayerTeam(room, handle) == Some("A")
    ensures ClaimantTeam(room.teamA, room.teamB, handle) == Some(TeamB) <==> GetPlayerTeam(room, handle) == Some("B")
    ensures ClaimantTeam(room.teamA, room.teamB, handle).None? <==> !IsPlayerInRoom(room, handle)
  {
  }

  /** The ledger keys of the reported cells, in report order. */
  function ClaimKeys(hits: seq<Solve>): (keys: seq<Key>)
    ensures |keys| == |hits|
    ensures forall i :: 0 <= i < |hits| ==> keys[i] == Key(hits[i].row, hits[i].col)
  {
    if hits == [] then [] else ClaimKeys(hits[..|hits| - 1]) + [Key(hits[|hits| - 1].row, hits[|hits| - 1].col)]
  }

  /** A map after the claim loop has gone over `keys`, one key at a time: a
      key not yet present receives `v`. */
  function Claimed<V>(m: map<Key, V>, keys: seq<Key>, v: V): map<Key, V>
    decreases |keys|
  {
    if keys == [] then m
    else
      var prev := Claimed(m, keys[..|keys| - 1], v);
      var k := keys[|keys| - 1];
      if k in prev then prev else prev[k := v]
  }

  /** Some key of `keys` is not yet in `m`. */
  predicate SomeNew<V>(keys: seq<Key>, m: map<Key, V>)
  {
    exists k :: k in keys && k !in m
  }

  lemma SomeNewStep<V>(keys: seq<Key>, n: nat, m: map<Key, V>)
    requires n < |keys|
    ensures SomeNew(keys[..n + 1], m) <==> SomeNew(keys[..n], m) || keys[n] !in m
  {
    assert keys[..n + 1] == keys[..n] + [keys[n]];
  }

  lemma ClaimStep<V>(m: map<Key, V>, keys: seq<Key>, n: nat, v: V)
    requires n < |keys|
    ensures Claimed(m, keys[..n + 1], v) ==
              var prev := Claimed(m, keys[..n], v);
              if keys[n] in prev then prev else prev[keys[n] := v]
  {
    assert keys[..n + 1][..n] == keys[..n];
  }

  /** The claim loop adds exactly the reported keys, never overwrites an
      entry that was there, and gives every new key the claim `v`. */
  lemma {:induction false} ClaimedCells<V>(m: map<Key, V>, keys: seq<Key>, v: V)
    ensures forall k :: k in Claimed(m, keys, v) <==> k in m || k in keys
    ensures forall k :: k in m ==> Claimed(m, keys, v)[k] == m[k]
    ensures forall k :: k in Claimed(m, keys, v) && k !in m ==> Claimed(m, keys, v)[k] == v
    decreases |keys|
  {
    if keys != [] {
      ClaimedCells(m, keys[..|keys| - 1], v);
      assert forall x :: x in keys <==> x in keys[..|keys| - 1] || x == keys[|keys| - 1];
    }
  }

  /** When every reported key is already claimed the map is left exactly as
      it was. */
  lemma {:induction false} ClaimedNothingNew<V>(m: map<Key, V>, keys: seq<Key>, v: V)
    requires forall k :: k in keys ==> k in m
    ensures Claimed(m, keys, v) == m
  {
    ClaimedCells(m, keys, v);
    var r := Claimed(m, keys, v);
    assert r.Keys == m.Keys;
  }

  /** Claiming the same keys for the ledger and for the marks keeps the marks
      the projection of the ledger. */
  lemma ClaimKeepsLedgerMatchesMarks(
    ledger: map<Key, Claim>, marks: map<Key, string>, keys: seq<Key>, claim: Claim)
    requires LedgerMatchesMarks(ledger, marks)
    ensures LedgerMatchesMarks(Claimed(ledger, keys, claim), Claimed(marks, keys, MarkOf(claim.team)))
  {
    ClaimedCells(ledger, keys, claim);
    ClaimedCells(marks, keys, MarkOf(claim.team));
  }

  /** What the update route replies on success. */
  datatype UpdateReply = UpdateReply(
    updated: bool,
    solvedProblems: map<Key, Claim>,
    gameState: map<Key, string>,
    winner: Option<Winner>)

  /** The request passes every check before the claim step: both ids given,
      the room exists, its game has started, and the handle is on a roster. */
  predicate Admitted(roomId: string, handle: string, room: Room?)
    reads room
  {
    roomId != "" && handle != "" && room != null && room.gameStarted
    && ClaimantTeam(room.teamA, room.teamB, handle).Some?
  }

  /** The cells `checkSolvedProblems` reports for the room's board. */
  function NewlySolved(board: Option<Board>, entries: map<string, CacheEntry>, handle: string, now: int, replyAt: int, reply: UserStatusReply)
    : Result<seq<Solve>, string>
    requires now <= replyAt
  {
    if board.None? then Failure("Cannot read properties of null (reading 'forEach')")
    else SolvedOnBoard(Fetch(entries, handle, now, replyAt, reply).0, board.value)
  }

  /** `POST /update/:roomId`: reject a missing id or handle (400), an
      unknown room (404), a game not started (400) and a non-member (403),
      all before any claim; then claim, for the player's team, every
      reported cell nobody holds yet, and when something was claimed
      re-evaluate the marks and record a non-null outcome as the winner.
      `now` is the clock when the request arrives and `replyAt` the clock
      once the submissions are in; the claims are stamped with `replyAt`. */
  method UpdateRoom(roomId: string, handle: string, room: Room?, cache: SubmissionsCache, now: int, replyAt: int, reply: UserStatusReply)
    returns (r: Result<UpdateReply, HttpError>)
    requires room != null ==> room.Valid()
    requires now <= replyAt
    modifies room, cache
    ensures roomId == "" || handle == "" ==> r == Failure(HttpError(400, "Room ID and handle are required"))
    ensures roomId != "" && handle != "" && room == null ==> r == Failure(HttpError(404, "Room not found"))
    ensures roomId != "" && handle != "" && room != null && !old(room.gameStarted) ==>
              r == Failure(HttpError(400, "Game has not started yet"))
    ensures roomId != "" && handle != "" && room != null && old(room.gameStarted)
            && old(ClaimantTeam(room.teamA, room.teamB, handle)).None? ==>
              r == Failure(HttpError(403, "Player not in this game"))
    ensures !old(Admitted(roomId, handle, room)) ==> unchanged(cache)
    ensures !old(Admitted(roomId, handle, room)) && room != null ==> unchanged(room)
    ensures old(Admitted(roomId, handle, room)) ==>
              cache.entries == Fetch(old(cache.entries), handle, now, replyAt, reply).1
    ensures old(Admitted(roomId, handle, room)) && NewlySolved(old(room.board), old(cache.entries), handle, now, replyAt, reply).Failure? ==>
              && r == Failure(HttpError(500, ServerErrorText(
                        NewlySolved(old(room.board), old(cache.entries), handle, now, replyAt, reply).error, "Failed to update room")))
              && unchanged(room)
    ensures old(Admitted(roomId, handle, room)) && NewlySolved(old(room.board), old(cache.entries), handle, now, replyAt, reply).Success? ==>
              r.Success?
    ensures r.Success? ==>
              && old(Admitted(roomId, handle, room))
              && NewlySolved(old(room.board), old(cache.entries), handle, now, replyAt, reply).Success?
              && var team := old(ClaimantTeam(room.teamA, room.teamB, handle)).value;
                 var keys := ClaimKeys(NewlySolved(old(room.board), old(cache.entries), handle, now, replyAt, reply).value);
                 && room.solvedProblems == Claimed(old(room.solvedProblems), keys, Claim(team, handle, replyAt))
                 && room.gameState == Claimed(old(room.gameState), keys, MarkOf(team))
                 && r.value.updated == SomeNew(keys, old(room.solvedProblems))
                 && room.winner == (if r.value.updated && Evaluate(room.gameState).Some?
                                    then Evaluate(room.gameState) else old(room.winner))
                 && r.value == UpdateReply(r.value.updated, room.solvedProblems, room.gameState, room.winner)
    ensures room != null ==>
              && room.teamA == old(room.teamA) && room.teamB == old(room.teamB)
              && room.gameStarted == old(room.gameStarted) && room.board == old(room.board)
              && room.settings == old(room.settings)
    ensures room != null ==> room.Valid()
  {
    if roomId == "" || handle == "" {
      return Failure(HttpError(400, "Room ID and handle are required"));
    }
    if room == null {
      return Failure(HttpError(404, "Room not found"));
    }
    if !room.gameStarted {
      return Failure(HttpError(400, "Game has not started yet"));
    }
    var team := ClaimantTeam(room.teamA, room.teamB, handle);
    if team.None? {
      return Failure(HttpError(403, "Player not in this game"));
    }

    r := ResolveClaims(room, team.value, handle, cache, now, replyAt, reply);
  }

  /** The update route once the request is admitted: ask which board cells
      the player has solved, claim the unclaimed ones for the team, and
      when something was claimed re-evaluate the marks and record a
      non-null outcome as the winner. */
  method ResolveClaims(room: Room, team: TeamName, handle: string, cache: SubmissionsCache, now: int, replyAt: int, reply: UserStatusReply)
    returns (r: Result<UpdateReply, HttpError>)
    requires room.Valid() && room.gameStarted
    requires now <= replyAt
    modifies room, cache
    ensures cache.entries == Fetch(old(cache.entries), handle, now, replyAt, reply).1
    ensures NewlySolved(old(room.board), old(cache.entries), handle, now, replyAt, reply).Failure? ==>
              && r == Failure(HttpError(500, ServerErrorText(
                        NewlySolved(old(room.board), old(cache.entries), handle, now, replyAt, reply).error, "Failed to update room")))
              && unchanged(room)
    ensures NewlySolved(old(room.board), old(cache.entries), handle, now, replyAt, reply).Success? ==>
              && r.Success?
              && var keys := ClaimKeys(NewlySolved(old(room.board), old(cache.entries), handle, now, replyAt, reply).value);
                 && room.solvedProblems == Claimed(old(room.solvedProblems), keys, Claim(team, handle, replyAt))
                 && room.gameState == Claimed(old(room.gameState), keys, MarkOf(team))
                 && r.value.updated == SomeNew(keys, old(room.solvedProblems))
                 && room.winner == (if r.value.updated && Evaluate(room.gameState).Some?
                                    then Evaluate(room.gameState) else old(room.winner))
                 && r.value == UpdateReply(r.value.updated, room.solvedProblems, room.gameState, room.winner)
    ensures room.teamA == old(room.teamA) && room.teamB == old(room.teamB)
    ensures room.gameStarted == old(room.gameStarted) && room.board == old(room.board)
    ensures room.settings == old(room.settings)
    ensures room.Valid()
  {
    var board := room.board.value;
    var checked := CheckSolvedProblems(handle, board, cache, now, replyAt, reply);
    if checked.Failure? {
      return Failure(HttpError(500, ServerErrorText(checked.error, "Failed to update room")));
    }
    var newlySolved := checked.value;
    SolvedCellsInGrid(Fetch(old(cache.entries), handle, now, replyAt, reply).0, board);

    var updated := ClaimCells(room, newlySolved, team, handle, replyAt);
    if updated {
      RecordOutcome(room);
    }
    r := Success(UpdateReply(updated, room.solvedProblems, room.gameState, room.winner));
  }

  /** After a claim: evaluate the marks and record a non-null outcome as
      the winner; a null outcome leaves the winner as it was. */
  method RecordOutcome(room: Room)
    requires room.Valid() && room.gameStarted
    modifies room
    ensures room.winner == if Evaluate(room.gameState).Some? then Evaluate(room.gameState) else old(room.winner)
    ensures room.teamA == old(room.teamA) && room.teamB == old(room.teamB)
    ensures room.gameStarted == old(room.gameStarted) && room.board == old(room.board)
    ensures room.settings == old(room.settings)
    ensures room.solvedProblems == old(room.solvedProblems) && room.gameState == old(room.gameState)
    ensures room.Valid()
  {
    var gameResult := room.CheckWin();
    if gameResult.Some? {
      room.winner := gameResult;
    }
  }

  /** The claim loop of the update route: for each reported cell, in
      order, a key nobody holds receives the team's claim in the ledger and
      the team's mark in the marks; `updated` says whether any key did. */
  method ClaimCells(room: Room, newlySolved: seq<Solve>, team: TeamName, handle: string, now: int)
    returns (updated: bool)
    requires room.Valid()
    requires forall s :: s in newlySolved ==> 0 <= s.row < 3 && 0 <= s.col < 3
    modifies room
    ensures room.solvedProblems == Claimed(old(room.solvedProblems), ClaimKeys(newlySolved), Claim(team, handle, now))
    ensures room.gameState == Claimed(old(room.gameState), ClaimKeys(newlySolved), MarkOf(team))
    ensures updated == SomeNew(ClaimKeys(newlySolved), old(room.solvedProblems))
    ensures room.teamA == old(room.teamA) && room.teamB == old(room.teamB)
    ensures room.gameStarted == old(room.gameStarted) && room.board == old(room.board)
    ensures room.settings == old(room.settings) && room.winner == old(room.winner)
    ensures room.Valid()
  {
    ghost var keys := ClaimKeys(newlySolved);
    var claim := Claim(team, handle, now);
    updated := false;
    for n := 0 to |newlySolved|
      invariant room.solvedProblems == Claimed(old(room.solvedProblems), keys[..n], claim)
      invariant room.gameState == Claimed(old(room.gameState), keys[..n], MarkOf(team))
      invariant updated == SomeNew(keys[..n], old(room.solvedProblems))
      invariant room.teamA == old(room.teamA) && room.teamB == old(room.teamB)
      invariant room.gameStarted == old(room.gameStarted) && room.board == old(room.board)
      invariant room.settings == old(room.settings) && room.winner == old(room.winner)
    {
      var solve := newlySolved[n];
      var key := Key(solve.row, solve.col);
      ClaimStep(old(room.solvedProblems), keys, n, claim);
      SomeNewStep(keys, n, old(room.solvedProblems));
      ClaimStep(old(room.gameState), keys, n, MarkOf(team));
      ClaimKeepsLedgerMatchesMarks(old(room.solvedProblems), old(room.gameState), keys[..n], claim);
      ClaimedCells(old(room.solvedProblems), keys[..n], claim);
      if key !in room.solvedProblems {
        room.solvedProblems := room.solvedProblems[key := claim];
        room.gameState := room.gameState[key := MarkOf(team)];
        updated := true;
      }
    }
    assert keys[..|newlySolved|] == keys;
    ClaimKeepsLedgerMatchesMarks(old(room.solvedProblems), old(room.gameState), keys, claim);
    ClaimedCells(old(room.solvedProblems), keys, claim);
    assert forall k :: k in keys ==> InGrid(k) by {
      forall k | k in keys ensures InGrid(k) {
        var i :| 0 <= i < |keys| && keys[i] == k;
        assert newlySolved[i] in newlySolved;
      }
    }
  }

  /** A claim request that finds nothing new leaves the ledger, the marks and
      the winner as they were. */
  lemma NothingNewChangesNothing(
    ledger: map<Key, Claim>, marks: map<Key, string>, keys: seq<Key>, claim: Claim)
    requires LedgerMatchesMarks(ledger, marks)
    requires !SomeNew(keys, ledger)
    ensures Claimed(ledger, keys, claim) == ledger
    ensures Claimed(marks, keys, MarkOf(claim.team)) == marks
  {
    ClaimedNothingNew(ledger, keys, claim);
    ClaimedNothingNew(marks, keys, MarkOf(claim.team));
  }

  /** A cell keeps its first claimant: whatever later requests report, the
      entry recorded for an already claimed key stays. */
  lemma {:induction false} FirstClaimStands<V>(m: map<Key, V>, first: seq<Key>, later: seq<Key>, v: V, w: V, k: Key)
    requires k in first
    ensures k in Claimed(m, first, v) && k in Claimed(Claimed(m, first, v), later, w)
    ensures Claimed(Claimed(m, first, v), later, w)[k] == Claimed(m, first, v)[k]
    ensures k !in m ==> Claimed(Claimed(m, first, v), later, w)[k] == v
  {
    ClaimedCells(m, first, v);
    ClaimedCells(Claimed(m, first, v), later, w);
  }

  // ------------------------------------------------------------------ join

  /** `POST /join`: a missing room id, username or team is a 400; otherwise
      the answer follows `joinRoom`. */
  method JoinRoute(roomId: string, username: string, team: string, room: Room?) returns (r: Result<string, HttpError>)
    requires room != null ==> room.Valid()
    modifies room
    ensures roomId == "" || username == "" || team == "" ==>
              r == Failure(HttpError(400, "Missing required fields")) && (room != null ==> unchanged(room))
    ensures roomId != "" && username != "" && team != "" ==>
              var joined := room != null && !old(room.gameStarted)
                            && JoinRosters(old(room.teamA), old(room.teamB), username, team).Some?;
              && r == (if joined then Success("Joined successfully") else Failure(HttpError(400, "Failed to join room")))
              && (joined ==> (room.teamA, room.teamB) == JoinRosters(old(room.teamA), old(room.teamB), username, team).value)
              && (!joined && room != null ==> unchanged(room))
    ensures room != null ==> room.Valid()
  {
    if roomId == "" || username == "" || team == "" {
      return Failure(HttpError(400, "Missing required fields"));
    }
    var success := JoinRoom(room, username, team);
    if success {
      r := Success("Joined successfully");
    } else {
      r := Failure(HttpError(400, "Failed to join room"));
    }
  }

  // ----------------------------------------------------------------- start

  /** What the start route replies on success. */
  datatype StartReply = StartReply(
    board: Board,
    gameStarted: bool,
    roomId: string,
    settings: Option<Settings>,
    teamA: seq<string>,
    teamB: seq<string>,
    gameStartTime: int)

  /** `POST /start/:roomId`: a missing id is a 400, an unknown room a 404, a
      started game a 400; then `startGame` runs and its error, if any, is a
      500. On success the room holds the board and the settings and the
      reply carries them with the rosters and the start time. */
  method StartRoute(roomId: string, settings: Option<Settings>, room: Room?, provisioned: Result<Board, string>, now: int)
    returns (r: Result<StartReply, HttpError>)
    requires room != null ==> room.Valid()
    requires provisioned.Success? ==> IsGrid(provisioned.value)
    modifies room
    ensures roomId == "" ==> r == Failure(HttpError(400, "Room ID is required"))
    ensures roomId != "" && room == null ==> r == Failure(HttpError(404, "Room not found"))
    ensures roomId != "" && room != null && old(room.gameStarted) ==> r == Failure(HttpError(400, "Game already started"))
    ensures roomId != "" && room != null && !old(room.gameStarted) && (old(|room.teamA|) == 0 || old(|room.teamB|) == 0) ==>
              r == Failure(HttpError(500, "Both teams must have at least one player"))
    ensures roomId != "" && room != null && !old(room.gameStarted) && old(|room.teamA|) > 0 && old(|room.teamB|) > 0 ==>
              && (provisioned.Failure? ==> r == Failure(HttpError(500, ServerErrorText(provisioned.error, "Failed to start game"))))
              && (provisioned.Success? ==>
                    r == Success(StartReply(provisioned.value, true, roomId, settings, old(room.teamA), old(room.teamB), now)))
    ensures r.Failure? && room != null ==> unchanged(room)
    ensures r.Success? ==>
              && room.gameStarted && room.board == Some(r.value.board) && room.settings == settings
              && room.teamA == old(room.teamA) && room.teamB == old(room.teamB)
              && room.solvedProblems == old(room.solvedProblems) && room.gameState == old(room.gameState)
              && room.winner == old(room.winner)
    ensures room != null ==> room.Valid()
  {
    if roomId == "" {
      return Failure(HttpError(400, "Room ID is required"));
    }
    if room == null {
      return Failure(HttpError(404, "Room not found"));
    }
    if room.gameStarted {
      return Failure(HttpError(400, "Game already started"));
    }
    var board := StartGame(room, settings, provisioned);
    if board.Failure? {
      return Failure(HttpError(500, ServerErrorText(board.error, "Failed to start game")));
    }
    room.gameStarted := true;
    room.board := Some(board.value);
    room.settings := settings;
    r := Success(StartReply(board.value, true, roomId, settings, room.teamA, room.teamB, now));
  }
}

=== FILE: socket_gateway.dfy ===
/** The per-connection handlers of backend/socket.js that decide something:
    `joinRoom`, `joinTeam`, `reconnectPlayer`, `leaveRoom` and `disconnect`.
    A connection keeps its `currentRoom` and the set of socket.io groups it
    is in; what a handler sends is returned as a list of emits, addressed
    either to the room's group or to the sender alone. The room lookup
    `getRoom(roomId)` is a `Room?` argument. */
module SocketGateway {
  import opened Wrappers
  import opened JsBuiltins
  import opened RoomModel
  import opened RoomManager

  /** Who an emit reaches: `io.to(roomId)` or the sending socket. */
  datatype Audience = Group(roomId: string) | Sender

  /** The events these handlers send. A room update carries the room, or
      null when there is none. */
  datatype Emit =
    | RoomUpdate(to: Audience, hasRoom: bool)
    | Reconnected(to: Audience, team: string)
    | ErrorEvent(to: Audience, message: string)

  /** The `{ success, error }` acknowledgement passed to the callback. */
  datatype Ack = Succeeded | Refused(error: string)

  // ------------------------------------------------- connection membership

  /** What a connection is in: its `currentRoom` and its socket groups. */
  datatype Membership = Membership(currentRoom: Option<string>, groups: set<string>)

  /** Leave the previous group when `currentRoom` is truthy, join the new
      one and remember it (`joinRoom`, and `reconnectPlayer` for a member). */
  function Enter(m: Membership, roomId: string): (r: Membership)
    ensures r.currentRoom == Some(roomId) && roomId in r.groups
    ensures Truthy(m.currentRoom) && m.currentRoom.value != roomId ==> m.currentRoom.value !in r.groups
    ensures forall g :: g != roomId && (!Truthy(m.currentRoom) || g != m.currentRoom.value) ==>
              (g in r.groups <==> g in m.groups)
  {
    var kept := if Truthy(m.currentRoom) then m.groups - {m.currentRoom.value} else m.groups;
    Membership(Some(roomId), kept + {roomId})
  }

  /** `leaveRoom` for a room that exists: leave the named group, whatever
      `currentRoom` is, and forget `currentRoom`. */
  function Leave(m: Membership, roomId: string): (r: Membership)
    ensures r.currentRoom == None && roomId !in r.groups
    ensures forall g :: g != roomId ==> (g in r.groups <==> g in m.groups)
  {
    Membership(None, m.groups - {roomId})
  }

  /** `disconnect`: when `currentRoom` is truthy, leave it and forget it;
      otherwise nothing. */
  function Drop(m: Membership): (r: Membership)
    ensures r.currentRoom == (if Truthy(m.currentRoom) then None else m.currentRoom)
    ensures Truthy(m.currentRoom) ==> m.currentRoom.value !in r.groups
    ensures forall g :: (!Truthy(m.currentRoom) || g != m.currentRoom.value) ==> (g in r.groups <==> g in m.groups)
  {
    if Truthy(m.currentRoom) then Membership(None, m.groups - {m.currentRoom.value}) else m
  }

  /** The connection is in no group other than a non-empty `currentRoom`. */
  predicate Tracked(m: Membership)
  {
    forall g :: g in m.groups ==> g != "" && m.currentRoom == Some(g)
  }

  /** Joining a room by a non-empty id leaves the connection in that group
      and no other, so it is never in two rooms at once. */
  lemma EnterKeepsOneGroup(m: Membership, roomId: string)
    requires Tracked(m) && roomId != ""
    ensures Enter(m, roomId).groups == {roomId}
    ensures Tracked(Enter(m, roomId))
  {
    assert forall g :: g in m.groups ==> Truthy(m.currentRoom) && g == m.currentRoom.value;
  }

  /** Disconnecting keeps a tracked connection tracked and in no group. */
  lemma DropLeavesNoGroup(m: Membership)
    requires Tracked(m)
    ensures Drop(m).groups == {} && Tracked(Drop(m))
  {
    assert forall g :: g in m.groups ==> Truthy(m.currentRoom) && g == m.currentRoom.value;
  }

  /** Leaving the current room leaves a tracked connection in no group. */
  lemma LeaveCurrentLeavesNoGroup(m: Membership, roomId: string)
    requires Tracked(m) && m.currentRoom == Some(roomId)
    ensures Leave(m, roomId).groups == {} && Tracked(Leave(m, roomId))
  {
    assert forall g :: g in m.groups ==> g == roomId;
  }

  /** `leaveRoom` with an id other than the current room forgets
      `currentRoom` but stays in its group; a later join no longer leaves
      that group, and the connection ends up in two groups. */
  lemma LeaveElsewhereStrandsGroup()
    ensures var m := Enter(Membership(None, {}), "r1");
            && Tracked(m)
            && Leave(m, "r2") == Membership(None, {"r1"})
            && !Tracked(Leave(m, "r2"))
            && Enter(Leave(m, "r2"), "r3").groups == {"r1", "r3"}
  {
    var m := Enter(Membership(None, {}), "r1");
    assert m.groups == {"r1"};
    assert Leave(m, "r2").groups == {"r1"};
  }

  // ------------------------------------------------------- the connection

  /** One socket connection and its `currentRoom`. */
  class Connection {
    var currentRoom: Option<string>
    var groups: set<string>

    function State(): Membership
      reads this
    {
      Membership(currentRoom, groups)
    }

    /** `let currentRoom = null` on connection. */
    constructor ()
      ensures State() == Membership(None, {}) && Tracked(State())
    {
      currentRoom := None;
      groups := {};
    }

    /** `joinRoom`: the connection moves to the room's group even when no
        room has that id; a found room is broadcast to the group, a missing
        one answered with a null update to the sender. */
    method JoinRoom(roomId: string, room: Room?) returns (ack: Ack, out: seq<Emit>)
      modifies this
      ensures State() == Enter(old(State()), roomId)
      ensures room != null ==> ack == Succeeded && out == [RoomUpdate(Group(roomId), true)]
      ensures room == null ==> ack == Refused("Room not found") && out == [RoomUpdate(Sender, false)]
    {
      if Truthy(currentRoom) {
        groups := groups - {currentRoom.value};
      }
      groups := groups + {roomId};
      currentRoom := Some(roomId);
      if room != null {
        ack, out := Succeeded, [RoomUpdate(Group(roomId), true)];
      } else {
        ack, out := Refused("Room not found"), [RoomUpdate(Sender, false)];
      }
    }

    /** `reconnectPlayer`: an unknown room is refused; a player on either
        roster rejoins the room's group and gets their code 'A' or 'B' from
        `getPlayerTeam`; anyone else is refused, with a message that depends
        on whether the game has started. Only a member moves the connection. */
    method ReconnectPlayer(roomId: string, handle: string, room: Room?)
      returns (r: Result<string, string>, out: seq<Emit>)
      modifies this
      ensures room == null ==>
                r == Failure("Room not found") && out == [ErrorEvent(Sender, "Room not found")]
                && State() == old(State())
      ensures room != null && IsPlayerInRoom(room, handle) ==>
                && r == Success(GetPlayerTeam(room, handle).value)
                && State() == Enter(old(State()), roomId)
                && out == [Reconnected(Sender, r.value), RoomUpdate(Group(roomId), true)]
      ensures room != null && !IsPlayerInRoom(room, handle) ==>
                && r == Failure(if room.gameStarted then "Not a member of this game" else "Player not found in room")
                && out == [ErrorEvent(Sender, r.error)]
                && State() == old(State())
    {
      var isInRoom := IsPlayerInRoom(room, handle);
      if room == null {
        return Failure("Room not found"), [ErrorEvent(Sender, "Room not found")];
      }
      if isInRoom {
        var team := GetPlayerTeam(room, handle);
        if Truthy(currentRoom) {
          groups := groups - {currentRoom.value};
        }
        groups := groups + {roomId};
        currentRoom := Some(roomId);
        r := Success(team.value);
        out := [Reconnected(Sender, team.value), RoomUpdate(Group(roomId), true)];
      } else if room.gameStarted {
        // the roster test repeated here cannot succeed once `isInRoom` failed
        r := Failure("Not a member of this game");
        out := [ErrorEvent(Sender, r.error)];
      } else {
        r := Failure("Player not found in room");
        out := [ErrorEvent(Sender, r.error)];
      }
    }

    /** `leaveRoom`: for a known room the handle is filtered out of both
        rosters, the connection leaves the named group and forgets
        `currentRoom`, and the group gets the new room; nothing else of the
        room changes. An unknown room is refused and nothing changes. */
    method LeaveRoom(roomId: string, handle: string, room: Room?) returns (ack: Ack, out: seq<Emit>)
      requires room != null ==> room.Valid()
      modifies this, room
      ensures room == null ==> ack == Refused("Room not found") && out == [] && State() == old(State())
      ensures room != null ==>
                && ack == Succeeded && out == [RoomUpdate(Group(roomId), true)]
                && State() == Leave(old(State()), roomId)
                && room.Record() == old(room.Record()).(teamA := Without(old(room.teamA), handle),
                                                         teamB := Without(old(room.teamB), handle))
                && room.Valid()
    {
      if room == null {
        return Refused("Room not found"), [];
      }
      WithoutKeepsRostersValid(room.teamA, room.teamB, handle);
      room.teamA := Without(room.teamA, handle);
      room.teamB := Without(room.teamB, handle);
      groups := groups - {roomId};
      currentRoom := None;
      ack, out := Succeeded, [RoomUpdate(Group(roomId), true)];
    }

    /** `disconnect`: leaves and forgets a truthy `currentRoom`; it takes no
        room, so no roster can change. */
    method Disconnect()
      modifies this
      ensures State() == Drop(old(State()))
    {
      if Truthy(currentRoom) {
        groups := groups - {currentRoom.value};
        currentRoom := None;
      }
    }
  }

  /** `joinTeam`: the result of `joinRoom` decides the emits; a join is
      broadcast to the room's group, a refusal answered to the sender only. */
  method JoinTeam(roomId: string, handle: string, team: string, room: Room?) returns (out: seq<Emit>)
    requires room != null ==> room.Valid()
    modifies room
    ensures var joined := room != null && !old(room.gameStarted)
                          && JoinRosters(old(room.teamA), old(room.teamB), handle, team).Some?;
            && (joined ==> out == [RoomUpdate(Group(roomId), true)]
                           && (room.teamA, room.teamB) == JoinRosters(old(room.teamA), old(room.teamB), handle, team).value)
            && (!joined ==> out == [ErrorEvent(Sender, "Failed to join team")])
            && (room != null && !joined ==> unchanged(room))
    ensures room != null ==> room.Valid()
  {
    var success := RoomManager.JoinRoom(room, handle, team);
    if success {
      out := [RoomUpdate(Group(roomId), true)];
    } else {
      out := [ErrorEvent(Sender, "Failed to join team")];
    }
  }

  // ------------------------------------------------------------ rosters

  /** Filtering a handle out of valid rosters keeps them valid. */
  lemma WithoutKeepsRostersValid(teamA: seq<string>, teamB: seq<string>, handle: string)
    requires RostersValid(teamA, teamB)
    ensures RostersValid(Without(teamA, handle), Without(teamB, handle))
  {
    var a, b := Without(teamA, handle), Without(teamB, handle);
    forall h ensures multiset(a)[h] <= 1 && multiset(b)[h] <= 1 {
      if h != handle {
        assert multiset(teamA)[h] <= 1 && multiset(teamB)[h] <= 1;
      }
    }
    forall h | h in a ensures h !in b {
      assert multiset(a)[h] == multiset(teamA)[h];
      assert multiset(b)[h] == multiset(teamB)[h];
    }
  }

  /** Leaving after a join: the player is on neither team and every other
      player's place is as it was before the join, in order. */
  lemma {:induction false} LeaveUndoesJoin(teamA: seq<string>, teamB: seq<string>, handle: string, team: string)
    requires JoinRosters(teamA, teamB, handle, team).Some?
    ensures var (a, b) := JoinRosters(teamA, teamB, handle, team).value;
            Without(a, handle) == Without(teamA, handle) && Without(b, handle) == Without(teamB, handle)
  {
    var ka := Without(teamA, handle);
    var kb := Without(teamB, handle);
    WithoutAppendSame(ka, handle);
    WithoutAppendSame(kb, handle);
  }

  /** Removing x from a list that ends in x, and already lacks x otherwise,
      gives that list back. */
  lemma {:induction false} WithoutAppendSame(xs: seq<string>, x: string)
    requires x !in xs
    ensures Without(xs + [x], x) == xs
  {
    WithoutAppend(xs, [x], x);
  }
}

=== FILE: wrappers.dfy ===
/** Optional values and success/failure results, standing for JavaScript's
    `null`/`undefined` and for thrown errors or error responses. */
module Wrappers {

  datatype Option<+T> = None | Some(value: T)

  datatype Result<+R, +E> = Success(value: R) | Failure(error: E)
}
